=== FILE: README.md ===
# STAMP command-line configuration gate, in Dafny

This project models the configuration gate of the STAMP command-line tool
(`preprocess/stamp/cli.py`). The gate sits in front of the slow preprocessing
pipeline and decides four things before any slide is touched:

- **Which configuration file a run uses.** An explicit `--config` path is used as
  given. Otherwise `config.yaml` in the working directory is used, falling back,
  with a notice, to the factory configuration shipped with the package.
- **Whether the required dotted keys are present.** `_config_has_key` is false both
  for an absent key and for a null one. The model's lookup makes the three-way
  distinction (absent, null, present), and `_config_has_key` is its "present" test.
- **Whether the path-valued keys name existing locations.** `check_path_exists`
  rebuilds each path one component at a time from the root `/`. It names the
  first component whose cumulative location is missing.
- **What `run_cli` does with a command.** `init` bypasses resolution. Unknown
  commands fail only after resolution. `preprocess` reaches the pipeline only
  through three gates in a fixed order: required keys and paths, the
  normalisation template, and the feature-extractor weights.

## Modules

| module | file | models |
|---|---|---|
| `Results` | `results.dfy` | `Option`, `Result`, `Outcome`, and the error kinds the gate raises (`CliError`). |
| `Text` | `text.dfy` | `str.split` with a one-character separator, and its inverse `str.join`. |
| `PathCheck` | `path_check.dfy` | The filesystem as a set of existing locations (each a sequence of names below `/`), `check_path_exists`, and `pathlib`'s `Path.exists` for the other checks. |
| `ConfigStore` | `config_store.dfy` | The loaded configuration as a tagged-union tree (`Null`, `Scalar`, `Seq`, `Map`), and `_config_has_key` as a three-way lookup (`Absent`, `NullValue`, `Present`). |
| `Requirements` | `requirements.dfy` | `require_configs` and `check_and_handle_path`, with the path phase also given a flat reading (one list of path checks) that the characterisation lemmas are proved on. |
| `Resolution` | `resolution.dfy` | `resolve_config_file_path`, and the check `create_config_file` makes before copying. |
| `Cli` | `cli.dfy` | The decision skeleton of `run_cli`. |
| `Scenarios` | `scenarios.dfy` | Worked cases: a missing key, a path value left unread while a key is missing, a data directory whose second component was never created, and a list of directories whose missing first entry stops the run before a non-string second entry is read. |

Some behaviour is passed in as parameters rather than modelled:

- The working directory and the existing locations are a `Disk` value.
- The YAML loader is a function `load: string -> Value`.
- The packaged factory file and the resources directory (`STAMP_RESOURCES_DIR`) are strings.

The process exits on every error. Here each error is a `CliError` value, and a run
ends in a `Result`.

A lookup through a non-mapping value raises, because `_config_has_key` catches only
`KeyError`: indexing a string, a number or a list with a key name raises another
exception, which nothing catches. The lookup is therefore defined only on keys
whose walk meets mappings (`ConfigStore.Walkable`), and a key that is simply missing
from a mapping reads as absent.

Likewise `preprocess` turns `output_dir`, `wsi_dir` and `cache_dir` into `Path`
objects just before the pipeline call (lines 146-149), and `Path` of a list, a
number or a boolean raises. `require_configs` accepts a list of directories for
`wsi_dir`, so such a configuration passes all three gates and then crashes. The
model's `preprocess` is defined only on configurations where those three values
are strings whenever that point is reached (`Cli.PreprocessDefined`), and the
pipeline receives their text.

`check_path_exists` keeps its quirk. It starts every walk at `/`, so a relative
path is checked as if it were absolute, although `pathlib` resolves the same
string against the working directory (`PathCheck.RelativePathIgnoresWorkingDirectory`).

## Model

| member | source | states |
|---|---|---|
| Text.Split | preprocess/stamp/cli.py:47 | Splitting yields at least one piece, and no piece contains the separator. |
| Text.SplitCount | preprocess/stamp/cli.py:29 | There is exactly one piece more than there are separators in the string. |
| Text.JoinSplit | preprocess/stamp/cli.py:29 | Joining the pieces of a split with the separator gives back the original string. |
| Text.SplitJoin | preprocess/stamp/cli.py:47 | Splitting a join of separator-free pieces gives back exactly those pieces, empty ones included. |
| PathCheck.CheckPathExists | preprocess/stamp/cli.py:28-35 | `check_path_exists`. A `(False, d)` answer names a component of the split path, holding no separator. `PathCheck.CheckPathExistsSpec` characterises the answer fully. |
| PathCheck.WalkSpec | preprocess/stamp/cli.py:31-35 | The walk answers `Exists` iff every cumulative location exists. It answers `MissingAt(names[k])` when component `k` is the first missing one, whatever follows it, and every `MissingAt` names such a first missing component. |
| PathCheck.CheckPathExistsSpec | preprocess/stamp/cli.py:28-35 | `check_path_exists` returns `(True, None)` iff every cumulative prefix of the path, from the root down, exists. A `(False, d)` answer names the first missing component, with every earlier prefix existing. |
| PathCheck.WalkLoop | preprocess/stamp/cli.py:31-35 | The loop returns the walk's answer and records each location it tests. Each is the next cumulative prefix. All but the last exist. On a miss, the last one is missing and nothing deeper was tested. |
| PathCheck.CheckPathExistsLoop | preprocess/stamp/cli.py:28-35 | The same loop on the split path: it returns `check_path_exists`'s answer, and the locations it tests are the cumulative prefixes up to and including the first missing one. |
| PathCheck.RelativeAnchoredAtRoot | preprocess/stamp/cli.py:29-30 | While the root exists, a relative path is checked exactly as the same path with a leading `/`. |
| PathCheck.AbsoluteFoundIsOnDisk | preprocess/stamp/cli.py:28-35 | For an absolute path, a `(True, None)` answer means `pathlib` finds the path on disk. |
| PathCheck.RelativePathIgnoresWorkingDirectory | preprocess/stamp/cli.py:29-33 | A one-name relative path that exists under the working directory but not under `/` is on disk for `pathlib`, yet is reported missing at that name. |
| ConfigStore.Select | preprocess/stamp/cli.py:47-50 | The loop of `_config_has_key`, told apart as absent, null or present. `ConfigStore.AbsentIffSegmentMissing`, `ConfigStore.PresentIsNotNull` and `ConfigStore.SelectAppend` characterise it. |
| ConfigStore.HasKey | preprocess/stamp/cli.py:45-53 | `_config_has_key`. `ConfigStore.HasKeyIff` characterises it. |
| ConfigStore.PresentIsNotNull | preprocess/stamp/cli.py:49-50 | A lookup never reports an explicit null as a present value. |
| ConfigStore.SelectAppend | preprocess/stamp/cli.py:47-48 | Looking up a longer key passes through the value at its prefix. An absent prefix makes the whole key absent. A null prefix can only be the whole key. |
| ConfigStore.AbsentIffSegmentMissing | preprocess/stamp/cli.py:47-52 | A lookup is absent iff some segment is the first one missing from the mapping the walk reached. |
| ConfigStore.HasKeyIff | preprocess/stamp/cli.py:45-53 | `_config_has_key` is false iff some segment is missing from its mapping or the final value is null. Any other value, `false`, `0` and `""` included, makes the key present. |
| ConfigStore.SectionKey | preprocess/stamp/cli.py:45-53 | `section.name` splits into two segments. A lookup that does not raise means the top level and the section are mappings. The key is present iff the section holds `name` with a non-null value. |
| Requirements.CheckAndHandlePath | preprocess/stamp/cli.py:37-43 | `check_and_handle_path`. A failure is a bad-path error carrying the path, the key, the section and a component of the path. |
| Requirements.CheckEach | preprocess/stamp/cli.py:62-64 | The loop over a list-valued key. A failure names one of the listed paths, with the key and the section. `Requirements.CheckEachIsFlat` characterises it. |
| Requirements.CheckPathKey | preprocess/stamp/cli.py:61-66 | One path key, a list element by element or a string once. A failure carries that key and the section. |
| Requirements.CheckPathKeys | preprocess/stamp/cli.py:60-66 | The loop over the path keys. A failure is a bad path of one of them. `Requirements.CheckPathKeysIsFlat` and `Requirements.CheckProbesSpec` characterise it. |
| Requirements.RequireConfigs | preprocess/stamp/cli.py:55-66 | `require_configs`. It fails only with a non-empty missing list or a bad path of a path key. `Requirements.RequireConfigsMissingKeys`, `Requirements.RequireConfigsPass` and `Requirements.RequireConfigsBadPath` characterise it. |
| Requirements.Missing | preprocess/stamp/cli.py:56-57 | The missing list contains exactly the qualified keys that fail `_config_has_key`, and is no longer than the key list. |
| Requirements.MissingAppend | preprocess/stamp/cli.py:57 | The missing list of a concatenation is the concatenation of the missing lists, so missing keys are reported in the order they were required. |
| Requirements.CheckEachIsFlat | preprocess/stamp/cli.py:62-64 | The loop over a list-valued key checks each element in order, tagged with the key, and stops at the first failure. |
| Requirements.CheckPathKeysIsFlat | preprocess/stamp/cli.py:60-66 | The nested loops over path keys and their elements run the same checks, in the same order, as one flat list. A scalar key is checked once, a list element by element. |
| Requirements.CheckProbesSpec | preprocess/stamp/cli.py:37-43 | The path phase passes iff every checked path exists from the root down. Otherwise it stops at the first path that does not, with an error carrying that path, its first missing component, its key and the section. |
| Requirements.RequireConfigsMissingKeys | preprocess/stamp/cli.py:55-59 | `require_configs` fails with missing keys iff some required key is absent or null. The error lists exactly those qualified keys. No other error kind is raised besides a bad path. |
| Requirements.KeysBeforePaths | preprocess/stamp/cli.py:57-60 | While a key is missing, the outcome is the missing-keys error whatever the disk holds, so no path is looked at. |
| Requirements.MissingKeysStop | preprocess/stamp/cli.py:55-59 | While a key is missing, `require_configs` is defined whatever the path keys hold, and fails with exactly the missing keys. |
| Requirements.RequireConfigsPass | preprocess/stamp/cli.py:55-66 | `require_configs` passes iff every required key is present and every path of every path key exists from the root down. |
| Requirements.RequireConfigsBadPath | preprocess/stamp/cli.py:60-66 | A bad-path failure occurs only when no key is missing. It names the first failing path, in key order and then list order, with its first missing component, its key and the section. |
| Requirements.PassedSectionFilledAll | preprocess/stamp/cli.py:55-59 | After `require_configs` passes for a plainly named section, the section is a mapping holding every required key with a non-null value. |
| Resolution.ResolveConfigFilePath | preprocess/stamp/cli.py:68-77 | An explicit path is never replaced: it is returned iff it exists, else `ConfigNotFound` names it. With no path, `config.yaml` is chosen if it exists, else the factory file with a notice. Any returned file exists. |
| Resolution.CreateConfigFile | preprocess/stamp/cli.py:18-26 | `init` raises no `ConfigurationError` iff the factory file is installed, and then copies to the explicit path or else `config.yaml`. Otherwise the error names the factory file. |
| Cli.TemplatePath | preprocess/stamp/cli.py:135 | The normalisation template lies directly under the resources directory. |
| Cli.ModelPath | preprocess/stamp/cli.py:138-141 | The weights file of `ctp` or `uni` lies under the resources directory and is not the template. |
| Cli.KeyGate | preprocess/stamp/cli.py:127-132 | The `require_configs` call of `preprocess`. It fails only with missing keys or a bad path of `wsi_dir` in `preprocessing`. |
| Cli.AfterKeys | preprocess/stamp/cli.py:133-161 | The template gate, the model gate and the pipeline call. It fails only with the template's path or a missing weights file. `Cli.AfterKeysGates` and `Cli.AfterKeysArguments` characterise it. |
| Cli.Preprocess | preprocess/stamp/cli.py:126-161 | The `preprocess` branch. It fails only with one of the four gate errors. `Cli.PreprocessGates` and the three gate lemmas characterise it. |
| Cli.RunCli | preprocess/stamp/cli.py:78-163 | `run_cli`. A success means a known command. It calls the pipeline iff the command is `preprocess`, and `init` prints no notice. The lemmas below characterise each command. |
| Cli.SectionFilled | preprocess/stamp/cli.py:127-133 | After the key gate passes, `cfg.preprocessing` is a mapping holding all ten required keys with non-null values. |
| Cli.KeyGateFirst | preprocess/stamp/cli.py:127-132 | A key or path error from `require_configs` is what `preprocess` reports, before the template and model gates. |
| Cli.MissingKeysReported | preprocess/stamp/cli.py:127-132 | While a required key is missing, `preprocess` is defined whatever `wsi_dir` and the other values hold, and reports exactly the missing keys. |
| Cli.TemplateGateSecond | preprocess/stamp/cli.py:135-137 | Once the keys pass, a truthy `norm` with the template missing fails with the template's path, before the model is checked. |
| Cli.ModelGateThird | preprocess/stamp/cli.py:138-149 | Past the first two gates, the model path comes from `feat_extractor`. A missing weights file fails with that path. Otherwise the three directories are strings, as `Path(...)` needs, and the pipeline is reached. |
| Cli.AfterKeysGates | preprocess/stamp/cli.py:135-149 | On a filled section whose directories are strings once the gates pass, the template check and the model check decide the outcome, in that order. |
| Cli.PreprocessGates | preprocess/stamp/cli.py:126-161 | On a configuration `preprocess` handles without raising, it reaches the pipeline iff all three gates pass. |
| Cli.AfterKeysArguments | preprocess/stamp/cli.py:135-161 | A pipeline call names the existing weights file of the configured extractor, and string directories. It also names the template under the resources directory, which exists whenever `norm` is truthy. |
| Cli.ListSlideDirectoryRaises | preprocess/stamp/cli.py:138-147 | A list-valued `wsi_dir` with all three gates passed is outside what `preprocess` handles, since `Path` of it raises. |
| Cli.ArgumentsFromSection | preprocess/stamp/cli.py:145-161 | This characterises `Cli.PipelineArguments`, the keyword arguments of the pipeline call. The pipeline receives `output_dir`, `wsi_dir` and `cache_dir` as the paths their strings name, and the section's other values unchanged. `cache` defaults to true and `keep_dir_structure` to false only when the key is absent, so an explicit null is passed on. |
| Cli.PipelineCallArguments | preprocess/stamp/cli.py:126-161 | A successful `preprocess` implies the key gate passed, the template gate did not fail, and the extractor is known. |
| Cli.InitSkipsResolution | preprocess/stamp/cli.py:81-83 | `init` prints no notice and never loads a configuration: its outcome does not depend on the loader. It raises no `ConfigurationError` iff the factory file exists, even when the explicit file does not, a case in which resolution would fail. |
| Cli.ResolutionComesFirst | preprocess/stamp/cli.py:84-85 | Every other command resolves first. A resolution error is the run's error, a success implies the resolved file exists, and the notice appears iff no path is given and `config.yaml` is missing. |
| Cli.UnknownCommandAfterResolution | preprocess/stamp/cli.py:162-163 | An unknown command always fails. It fails with `UnknownCommand` iff resolution succeeded, and otherwise with the resolution error. |
| Cli.IntrospectionSkipsValidation | preprocess/stamp/cli.py:124-125 | `config` succeeds iff resolution does, and prints the loaded document as it is, without validating keys or paths. |
| Cli.SetupReadsOnlyExtractor | preprocess/stamp/cli.py:94-123 | On a configuration whose `preprocessing.feat_extractor` is `ctp` or `uni`, `setup` succeeds iff resolution does. It prepares the template under the resources directory and that extractor's weights file, whatever the disk holds and without checking the required keys. |
| Cli.PipelineOnlyAfterGates | preprocess/stamp/cli.py:126-161 | `preprocess` calls the pipeline iff the configuration resolves and all three gates pass on the loaded document. |
| Scenarios.OneKeyMissing | preprocess/stamp/cli.py:55-59 | Keys `a` and `b` are required and only `a` is set: the run fails with exactly `section.b` missing, whatever the disk. |
| Scenarios.PathValueUnreadWhileKeyMissing | preprocess/stamp/cli.py:55-61 | Keys `a` and `b` are required, `a` is a path key holding any non-null value, a number or a mapping included, and `b` is unset: the run fails with exactly `section.b` missing. |
| Scenarios.ShallowestMissing | preprocess/stamp/cli.py:28-35 | `/d/x/y`, with `/d` present and `/d/x` absent, is reported missing at `x`. |
| Scenarios.PathMissingAfterKeys | preprocess/stamp/cli.py:55-66 | Both keys are set and the path key names `/d/x/y` with `/d/x` absent: the run fails with that path, `x`, the key and the section. |
| Scenarios.ListStopsAtMissingPath | preprocess/stamp/cli.py:60-64 | Both keys are set and the path key holds a list whose first entry names `/d/x/y`, with `/d/x` absent, and whose second entry is a number. The run is defined and fails with that path, `x`, the key and the section; the number is never split. |

## Left out

- YAML parsing, interpolation resolution and parse errors (`OmegaConf.load`, `OmegaConf.to_yaml`, lines 85 and 125). The loader is a parameter, and `config` records the loaded tree rather than its rendering.
- OmegaConf's `???` mandatory values, and interpolations that fail to resolve. They have no counterpart in the value tree.
- Cli.RunCli: `setup` (lines 94-123) is modelled as the two files it prepares. The downloads, the directory creation and the skip messages are network and I/O and are not modelled.
- Cli.RunCli: requires, for `setup`, that `cfg.preprocessing.feat_extractor` exists and is `ctp` or `uni`. Otherwise the source raises on the attribute access (line 107) or on the unbound `model_path` (line 112).
- The copy `shutil.copy` makes in `create_config_file` and the message it prints (lines 25-26).
- Resolution.CreateConfigFile: states only the factory-file check and the target. The copy itself can still fail: `FileNotFoundError` when the target's directory is missing, `SameFileError` when the target is the factory file. An existing directory as target receives `<dir>/config.yaml` rather than the target itself.
- Cli.InitSkipsResolution: its success means only that no `ConfigurationError` is raised. The copy outcomes listed for `Resolution.CreateConfigFile` are not modelled, including a missing directory for an explicit target that does not exist.
- Printing, `argparse` and exit codes in `main` (lines 165-190). Errors are `CliError` values, not message text or process status.
- Requirements.CheckAndHandlePath: a missing path stops the process with `SystemExit` (line 43), which `main` does not catch, while every other error (factory file, configuration file, missing keys, template, model, unknown command) is a `ConfigurationError` that `main` catches, prints and turns into exit status 1 (lines 183-187). The model reports both kinds as a `CliError` and does not tell the two exit routes apart.
- The `os.environ` seeding of `STAMP_RESOURCES_DIR` (lines 88-89). The resources directory is a parameter.
- The preprocessing pipeline itself (line 144 onwards). The model records the call and its arguments.
- The dead `case "init"` arm of the `match` (lines 92-93). `init` has already returned before it.
- ConfigStore.Select: requires every node the walk indexes into to be a mapping, because the source otherwise raises an exception other than `KeyError`, which nothing catches.
- Requirements.RequireConfigs: requires every path key to be a required key. Once no key is missing, it also requires every value the path checks reach to be a string: each path key's value, or each element of a list, up to and including the first path that does not exist (`Requirements.KeysReady`). The source calls `.split` on exactly those values, and a non-string one raises an exception other than `SystemExit`. Values after the first missing path, and all path values while a key is missing, are never read and may hold anything.
- Requirements.RequireConfigs: `prefix` is always a string. The default `prefix=None` is never used by `run_cli`.
- Cli.Preprocess: requires `feat_extractor` to be `ctp` or `uni` whenever the model check is reached. Otherwise `model_path` is unbound in the source.
- Cli.Preprocess: requires `output_dir`, `wsi_dir` and `cache_dir` to be strings whenever the weights file exists. Otherwise `Path(...)` raises at lines 146-149, a list-valued `wsi_dir` included, although `require_configs` accepts one.
- Cli.Preprocess: the directories are passed as the strings written in the configuration. `Path`'s normalisation of them (`a//b/` reads as `a/b`) is not modelled.
- Cli.PreprocessGates: holds on configurations `Cli.PreprocessDefined` admits. The "gates pass" direction says nothing of the `Path(...)` crash above, which that predicate excludes.
- Cli.PipelineOnlyAfterGates: holds when `Cli.RunDefined` does, so the `Path(...)` crash above is excluded rather than reported.
- Cli.ModelGateThird: its "otherwise the pipeline is reached" holds on configurations `Cli.PreprocessDefined` admits, which excludes the `Path(...)` crash.
- Cli.AfterKeysGates: its requires `Cli.AfterKeysDefined` excludes the `Path(...)` crash, so an existing weights file always leads to the pipeline call.
- PathCheck.OnDisk: `.`, `..` and symbolic links are not normalised, and files are not told apart from directories. A trailing `/` on a plain file therefore reads as existing.
- PathCheck.CheckPathExists: files are not told apart from directories either. For `/f/` with `f` a plain file the model answers that the path exists, where `os.path.exists` of `/f/` is false.
- Cli.RunCli: a missing command (`args.command is None`) is handled by `main` before `run_cli` and is not modelled.

=== FILE: cli.dfy ===
/** The decision skeleton of `run_cli`: `init` bypasses resolution, every other
    command resolves and loads the configuration first, unknown commands fail only
    after that, and `preprocess` reaches the pipeline only through three gates in a
    fixed order. */
module Cli {
  import opened Text
  import opened Results
  import opened PathCheck
  import opened ConfigStore
  import opened Requirements
  import opened Resolution

  /** The configuration section `preprocess` reads. */
  const Section: string := "preprocessing"

  /** The keys `preprocess` requires of its section, in the order they are checked. */
  const RequiredKeys: seq<string> :=
    ["output_dir", "wsi_dir", "cache_dir", "microns", "cores", "norm",
     "del_slide", "only_feature_extraction", "device", "feat_extractor"]

  /** The required keys whose values are checked on disk. */
  const PathKeys: seq<string> := ["wsi_dir"]

  /** The arguments `run_cli` hands to the external preprocessing pipeline. */
  datatype PipelineCall = PipelineCall(
    outputDir: string,
    wsiDir: string,
    modelPath: string,
    cacheDir: string,
    featExtractor: Value,
    targetMicrons: Value,
    cores: Value,
    norm: Value,
    delSlide: Value,
    cache: Value,
    onlyFeatureExtraction: Value,
    keepDirStructure: Value,
    device: Value,
    normalizationTemplate: string)

  /** What a successful run did. `setup`'s downloads are delegated and not modelled. */
  datatype Action =
    | CreatedConfig(target: string)
    | RanSetup(template: string, model: string)
    | PrintedConfig(printed: Value)
    | RanPipeline(call: PipelineCall)

  /** A run: whether the fallback notice was printed, and how it ended. */
  datatype Run = Run(notice: bool, outcome: Result<Action, CliError>)

  /** The normalisation template under the resources directory. */
  function TemplatePath(resources: string): (p: string)
    ensures |p| > |resources| && p[..|resources|] == resources && p[|resources|] == '/'
  {
    resources + "/normalization_template.jpg"
  }

  /** The feature extractors the model-path choice knows. */
  predicate KnownExtractor(feat: Value)
  {
    feat == Scalar(Str("ctp")) || feat == Scalar(Str("uni"))
  }

  /** The weights file for the configured feature extractor. */
  function ModelPath(resources: string, feat: Value): (p: string)
    requires KnownExtractor(feat)
    ensures |p| > |resources| && p[..|resources|] == resources && p[|resources|] == '/'
    ensures p != TemplatePath(resources)
  {
    var file := if feat == Scalar(Str("ctp")) then "ctranspath.pth"
                else "uni/vit_large_patch16_224.dinov2.uni_mass100k/pytorch_model.bin";
    resources + "/" + file
  }

  /** The configuration has a `preprocessing` mapping. */
  predicate HasSection(cfg: Value)
  {
    cfg.Map? && Section in cfg.entries && cfg.entries[Section].Map?
  }

  /** The entries of the `preprocessing` section (`cfg.preprocessing`). */
  function SectionOf(cfg: Value): map<string, Value>
    requires HasSection(cfg)
  {
    cfg.entries[Section].entries
  }

  /** The directories handed to the pipeline as paths are strings, the only values
      `pathlib.Path` accepts among those a configuration holds. */
  predicate PathArguments(c: map<string, Value>)
  {
    && "output_dir" in c && PathText(c["output_dir"])
    && "wsi_dir" in c && PathText(c["wsi_dir"])
    && "cache_dir" in c && PathText(c["cache_dir"])
  }

  /** What `require_configs` asks of the configuration for `preprocess`. */
  predicate RequirementsDefined(disk: Disk, cfg: Value)
  {
    RequireConfigsDefined(disk.fs, cfg, RequiredKeys, Section, PathKeys)
  }

  /** The key/path gate of `preprocess`. */
  function KeyGate(disk: Disk, cfg: Value): (r: Outcome<CliError>)
    requires RequirementsDefined(disk, cfg)
    ensures r.Fail? ==> r.error.MissingKeys? || (r.error.BadPath? && r.error.key in PathKeys && r.error.prefix == Section)
  {
    RequireConfigs(disk.fs, cfg, RequiredKeys, Section, PathKeys)
  }

  /** The normalisation template is needed but missing. */
  predicate TemplateGateFails(disk: Disk, c: map<string, Value>, resources: string)
  {
    "norm" in c && Truthy(c["norm"]) && !OnDisk(disk, TemplatePath(resources))
  }

  /** The run gets past the first two gates to the model-path choice. */
  predicate ReachesModelChoice(disk: Disk, cfg: Value, resources: string)
  {
    && RequirementsDefined(disk, cfg)
    && KeyGate(disk, cfg).Pass?
    && HasSection(cfg)
    && !TemplateGateFails(disk, SectionOf(cfg), resources)
  }

  /** What `preprocess` asks of the configuration: `require_configs` is defined on it,
      the feature extractor is a known one whenever the model path is chosen, and the
      directories are strings whenever they are turned into paths for the pipeline. */
  predicate PreprocessDefined(disk: Disk, cfg: Value, resources: string)
  {
    && RequirementsDefined(disk, cfg)
    && (ReachesModelChoice(disk, cfg, resources) ==>
          && "feat_extractor" in SectionOf(cfg)
          && KnownExtractor(SectionOf(cfg)["feat_extractor"])
          && (OnDisk(disk, ModelPath(resources, SectionOf(cfg)["feat_extractor"])) ==>
                PathArguments(SectionOf(cfg))))
  }

  /** No required key contains a dot, so each names one entry of the section. */
  lemma RequiredKeysPlain()
    ensures forall k :: k in RequiredKeys ==> Dot !in k
  {
  }

  /** After the key gate passes, the section holds every required key with a non-null
      value. */
  lemma SectionFilled(disk: Disk, cfg: Value)
    requires RequirementsDefined(disk, cfg)
    requires KeyGate(disk, cfg).Pass?
    ensures HasSection(cfg)
    ensures forall k :: k in RequiredKeys ==> k in SectionOf(cfg) && SectionOf(cfg)[k] != Null
  {
    RequiredKeysPlain();
    PassedSectionFilledAll(disk.fs, cfg, RequiredKeys, Section, PathKeys);
  }

  /** The section holds each required key, named one by one. */
  predicate Filled(c: map<string, Value>)
  {
    && "output_dir" in c && "wsi_dir" in c && "cache_dir" in c && "microns" in c
    && "cores" in c && "norm" in c && "del_slide" in c
    && "only_feature_extraction" in c && "device" in c && "feat_extractor" in c
  }

  /** A section holding every required key holds each of them by name. */
  lemma RequiredKeysByName(c: map<string, Value>)
    requires forall k :: k in RequiredKeys ==> k in c
    ensures Filled(c)
  {
  }

  /** The keyword arguments of the pipeline call: the three directories as paths, the
      section's other values, the chosen model and template paths, and `cache`
      defaulting to true and `keep_dir_structure` to false when the section lacks
      them. */
  function PipelineArguments(c: map<string, Value>, model: string, template: string): PipelineCall
    requires Filled(c) && PathArguments(c)
  {
    PipelineCall(
      outputDir := c["output_dir"].atom.text,
      wsiDir := c["wsi_dir"].atom.text,
      modelPath := model,
      cacheDir := c["cache_dir"].atom.text,
      featExtractor := c["feat_extractor"],
      targetMicrons := c["microns"],
      cores := c["cores"],
      norm := c["norm"],
      delSlide := c["del_slide"],
      cache := if "cache" in c then c["cache"] else Scalar(Bool(true)),
      onlyFeatureExtraction := c["only_feature_extraction"],
      keepDirStructure := if "keep_dir_structure" in c then c["keep_dir_structure"] else Scalar(Bool(false)),
      device := c["device"],
      normalizationTemplate := template)
  }

  /** What the template and model gates and the pipeline call ask of a section that
      passed the key gate: the extractor is known once the template gate passes, and
      the directories are strings once the model gate passes too. */
  predicate AfterKeysDefined(disk: Disk, c: map<string, Value>, resources: string)
  {
    && Filled(c)
    && (!TemplateGateFails(disk, c, resources) ==>
          && KnownExtractor(c["feat_extractor"])
          && (OnDisk(disk, ModelPath(resources, c["feat_extractor"])) ==> PathArguments(c)))
  }

  /** The template and model gates and the pipeline call, on a section that passed the
      key gate. */
  function AfterKeys(disk: Disk, c: map<string, Value>, resources: string): (r: Result<PipelineCall, CliError>)
    requires AfterKeysDefined(disk, c, resources)
    ensures r.Err? ==> r.error == TemplateMissing(TemplatePath(resources)) || r.error.ModelMissing?
  {
    var template := TemplatePath(resources);
    if Truthy(c["norm"]) && !OnDisk(disk, template) then Err(TemplateMissing(template))
    else
      var model := ModelPath(resources, c["feat_extractor"]);
      if !OnDisk(disk, model) then Err(ModelMissing(model))
      else Ok(PipelineArguments(c, model, template))
  }

  /** The `preprocess` branch of `run_cli`: the key/path gate, then the template gate
      when normalisation is on, then the model gate, then the pipeline call. */
  function Preprocess(disk: Disk, cfg: Value, resources: string): (r: Result<PipelineCall, CliError>)
    requires PreprocessDefined(disk, cfg, resources)
    ensures r.Err? ==> r.error.MissingKeys? || r.error.BadPath? || r.error.TemplateMissing? || r.error.ModelMissing?
  {
    match KeyGate(disk, cfg)
    case Fail(e) => Err(e)
    case Pass =>
      SectionFilled(disk, cfg);
      RequiredKeysByName(SectionOf(cfg));
      AfterKeys(disk, SectionOf(cfg), resources)
  }

  /** The commands `run_cli` knows. */
  predicate KnownCommand(command: string)
  {
    command in {"init", "setup", "config", "preprocess"}
  }

  /** What `setup` asks of the configuration: `cfg.preprocessing.feat_extractor` can be
      read, and names a known extractor, so that a weights file is chosen. */
  predicate SetupDefined(cfg: Value)
  {
    HasSection(cfg) && "feat_extractor" in SectionOf(cfg) && KnownExtractor(SectionOf(cfg)["feat_extractor"])
  }

  /** What `run_cli` asks: if `setup` or `preprocess` gets a configuration, that
      command is defined on it. `load` stands for reading a configuration file. */
  predicate RunDefined(command: string, explicit: Option<string>, disk: Disk, factory: string,
                       resources: string, load: string -> Value)
  {
    var resolved := ResolveConfigFilePath(disk, explicit, factory).file;
    && (command == "setup" && resolved.Ok? ==> SetupDefined(load(resolved.value)))
    && (command == "preprocess" && resolved.Ok? ==> PreprocessDefined(disk, load(resolved.value), resources))
  }

  /** `run_cli(args)`, with `explicit` the `--config` option, `factory` the packaged
      configuration file and `resources` the resources directory. */
  function RunCli(command: string, explicit: Option<string>, disk: Disk, factory: string,
                  resources: string, load: string -> Value): (run: Run)
    requires RunDefined(command, explicit, disk, factory, resources, load)
    ensures run.outcome.Ok? ==> KnownCommand(command)
    ensures run.outcome.Ok? ==> (run.outcome.value.RanPipeline? <==> command == "preprocess")
    ensures command == "init" ==> !run.notice
  {
    if command == "init" then
      Run(false, match CreateConfigFile(disk, explicit, factory)
                 case Ok(target) => Ok(CreatedConfig(target))
                 case Err(e) => Err(e))
    else
      var resolution := ResolveConfigFilePath(disk, explicit, factory);
      match resolution.file
      case Err(e) => Run(resolution.notice, Err(e))
      case Ok(file) =>
        var cfg := load(file);
        Run(resolution.notice,
            if command == "setup" then
              Ok(RanSetup(TemplatePath(resources), ModelPath(resources, SectionOf(cfg)["feat_extractor"])))
            else if command == "config" then Ok(PrintedConfig(cfg))
            else if command == "preprocess" then
              (match Preprocess(disk, cfg, resources)
               case Ok(call) => Ok(RanPipeline(call))
               case Err(e) => Err(e))
            else Err(UnknownCommand(command)))
  }

  /** All three gates of `preprocess` pass: the key/path gate, the template gate and
      the model gate. */
  predicate GatesPass(disk: Disk, cfg: Value, resources: string)
  {
    && ReachesModelChoice(disk, cfg, resources)
    && "feat_extractor" in SectionOf(cfg)
    && KnownExtractor(SectionOf(cfg)["feat_extractor"])
    && OnDisk(disk, ModelPath(resources, SectionOf(cfg)["feat_extractor"]))
  }

  /** A key or path error of `require_configs` is what `preprocess` reports, before
      the template and model gates are looked at. */
  lemma KeyGateFirst(disk: Disk, cfg: Value, resources: string)
    requires PreprocessDefined(disk, cfg, resources)
    ensures KeyGate(disk, cfg).Fail? ==> Preprocess(disk, cfg, resources) == Err(KeyGate(disk, cfg).error)
  {
  }

  /** While a required key is missing, `preprocess` is defined whatever the other
      values hold, `wsi_dir` included, and reports exactly the missing keys. */
  lemma MissingKeysReported(disk: Disk, cfg: Value, resources: string)
    requires AllAddressable(cfg, QualifyAll(Section, RequiredKeys))
    requires Missing(cfg, QualifyAll(Section, RequiredKeys)) != []
    ensures PreprocessDefined(disk, cfg, resources)
    ensures Preprocess(disk, cfg, resources) == Err(MissingKeys(Missing(cfg, QualifyAll(Section, RequiredKeys))))
  {
    var missing := Missing(cfg, QualifyAll(Section, RequiredKeys));
    assert RequirementsDefined(disk, cfg) && KeyGate(disk, cfg) == Fail(MissingKeys(missing)) by {
      var keys, pathKeys := RequiredKeys, PathKeys;
      assert forall k :: k in pathKeys ==> k in keys;
      MissingKeysStop(disk.fs, cfg, keys, Section, pathKeys);
    }
    assert !ReachesModelChoice(disk, cfg, resources);
  }

  /** Once the keys pass, a truthy `norm` with the template missing is reported before
      the model is looked at. */
  lemma TemplateGateSecond(disk: Disk, cfg: Value, resources: string)
    requires PreprocessDefined(disk, cfg, resources)
    ensures KeyGate(disk, cfg).Pass? ==>
              && HasSection(cfg)
              && (TemplateGateFails(disk, SectionOf(cfg), resources) ==>
                    Preprocess(disk, cfg, resources) == Err(TemplateMissing(TemplatePath(resources))))
  {
    if KeyGate(disk, cfg).Pass? {
      PastKeyGate(disk, cfg, resources);
      AfterKeysGates(disk, SectionOf(cfg), resources);
    }
  }

  /** On a filled section, the template gate and the model gate decide the outcome. */
  lemma AfterKeysGates(disk: Disk, c: map<string, Value>, resources: string)
    requires AfterKeysDefined(disk, c, resources)
    ensures TemplateGateFails(disk, c, resources) ==>
              AfterKeys(disk, c, resources) == Err(TemplateMissing(TemplatePath(resources)))
    ensures !TemplateGateFails(disk, c, resources) ==>
              var model := ModelPath(resources, c["feat_extractor"]);
              && (!OnDisk(disk, model) ==> AfterKeys(disk, c, resources) == Err(ModelMissing(model)))
              && (OnDisk(disk, model) ==> AfterKeys(disk, c, resources).Ok?)
  {
  }

  /** Past the key gate, `preprocess` is the template and model gates on the section. */
  lemma PastKeyGate(disk: Disk, cfg: Value, resources: string)
    requires PreprocessDefined(disk, cfg, resources)
    requires KeyGate(disk, cfg).Pass?
    ensures HasSection(cfg) && AfterKeysDefined(disk, SectionOf(cfg), resources)
    ensures Preprocess(disk, cfg, resources) == AfterKeys(disk, SectionOf(cfg), resources)
  {
    SectionFilled(disk, cfg);
    RequiredKeysByName(SectionOf(cfg));
  }

  /** Past the first two gates the extractor is known, and its missing weights file is
      the error; otherwise the pipeline is reached. */
  lemma ModelGateThird(disk: Disk, cfg: Value, resources: string)
    requires PreprocessDefined(disk, cfg, resources)
    requires ReachesModelChoice(disk, cfg, resources)
    ensures "feat_extractor" in SectionOf(cfg) && KnownExtractor(SectionOf(cfg)["feat_extractor"])
    ensures var model := ModelPath(resources, SectionOf(cfg)["feat_extractor"]);
            && (!OnDisk(disk, model) ==> Preprocess(disk, cfg, resources) == Err(ModelMissing(model)))
            && (OnDisk(disk, model) ==>
                  PathArguments(SectionOf(cfg)) && Preprocess(disk, cfg, resources).Ok?)
  {
    PastKeyGate(disk, cfg, resources);
    AfterKeysGates(disk, SectionOf(cfg), resources);
  }

  /** A list of slide directories passes `require_configs`, but a run that gets past
      all three gates with one turns it into a `Path` and raises: such a configuration
      is outside what `preprocess` handles. */
  lemma ListSlideDirectoryRaises(disk: Disk, cfg: Value, resources: string)
    requires ReachesModelChoice(disk, cfg, resources)
    requires "feat_extractor" in SectionOf(cfg) && KnownExtractor(SectionOf(cfg)["feat_extractor"])
    requires OnDisk(disk, ModelPath(resources, SectionOf(cfg)["feat_extractor"]))
    requires "wsi_dir" in SectionOf(cfg) && SectionOf(cfg)["wsi_dir"].Seq?
    ensures !PreprocessDefined(disk, cfg, resources)
  {
  }

  /** The pipeline gets the three directories as the paths their strings name and the
      section's other values unchanged; `cache` is true and `keep_dir_structure` false
      only when the key is absent, so an explicit null is passed on as null. */
  lemma ArgumentsFromSection(c: map<string, Value>, model: string, template: string)
    requires Filled(c) && PathArguments(c)
    ensures var call := PipelineArguments(c, model, template);
            && call.modelPath == model && call.normalizationTemplate == template
            && c["wsi_dir"] == Scalar(Str(call.wsiDir))
            && c["output_dir"] == Scalar(Str(call.outputDir))
            && c["cache_dir"] == Scalar(Str(call.cacheDir))
            && call.targetMicrons == c["microns"]
            && call.cores == c["cores"] && call.device == c["device"]
            && call.norm == c["norm"] && call.featExtractor == c["feat_extractor"]
            && call.delSlide == c["del_slide"]
            && call.onlyFeatureExtraction == c["only_feature_extraction"]
            && ("cache" in c ==> call.cache == c["cache"])
            && ("cache" !in c ==> call.cache == Scalar(Bool(true)))
            && ("keep_dir_structure" in c ==> call.keepDirStructure == c["keep_dir_structure"])
            && ("keep_dir_structure" !in c ==> call.keepDirStructure == Scalar(Bool(false)))
  {
  }

  /** A call that gets past both gates names the weights file of the configured
      extractor, which exists, and the template under the resources directory, which
      exists whenever normalisation is on. */
  lemma AfterKeysArguments(disk: Disk, c: map<string, Value>, resources: string)
    requires AfterKeysDefined(disk, c, resources)
    requires AfterKeys(disk, c, resources).Ok?
    ensures KnownExtractor(c["feat_extractor"])
    ensures var model := ModelPath(resources, c["feat_extractor"]);
            && OnDisk(disk, model)
            && (Truthy(c["norm"]) ==> OnDisk(disk, TemplatePath(resources)))
            && PathArguments(c)
            && AfterKeys(disk, c, resources) == Ok(PipelineArguments(c, model, TemplatePath(resources)))
  {
  }

  /** A pipeline call is made only with all three gates passed, and carries the
      section's values as `AfterKeysArguments` describes. */
  lemma PipelineCallArguments(disk: Disk, cfg: Value, resources: string)
    requires PreprocessDefined(disk, cfg, resources)
    requires Preprocess(disk, cfg, resources).Ok?
    ensures KeyGate(disk, cfg).Pass? && HasSection(cfg) && Filled(SectionOf(cfg))
    ensures !TemplateGateFails(disk, SectionOf(cfg), resources)
    ensures KnownExtractor(SectionOf(cfg)["feat_extractor"])
    ensures Preprocess(disk, cfg, resources) == AfterKeys(disk, SectionOf(cfg), resources)
  {
    if KeyGate(disk, cfg).Fail? {
      KeyGateFirst(disk, cfg, resources);
    } else {
      PastKeyGate(disk, cfg, resources);
      AfterKeysGates(disk, SectionOf(cfg), resources);
      AfterKeysArguments(disk, SectionOf(cfg), resources);
    }
  }

  /** `preprocess` reaches the pipeline exactly when all three gates pass. */
  lemma {:induction false} PreprocessGates(disk: Disk, cfg: Value, resources: string)
    requires PreprocessDefined(disk, cfg, resources)
    ensures Preprocess(disk, cfg, resources).Ok? <==> GatesPass(disk, cfg, resources)
  {
    if KeyGate(disk, cfg).Fail? {
      KeyGateFirst(disk, cfg, resources);
    } else {
      TemplateGateSecond(disk, cfg, resources);
      if ReachesModelChoice(disk, cfg, resources) {
        ModelGateThird(disk, cfg, resources);
      }
    }
  }

  /** `init` never resolves or loads a configuration: it prints no notice, its outcome
      does not depend on the loader, it succeeds exactly when the factory file is
      installed, and then even when the explicit file it is given does not exist, a
      case in which resolution would fail. */
  lemma InitSkipsResolution(explicit: Option<string>, disk: Disk, factory: string, resources: string,
                            load1: string -> Value, load2: string -> Value)
    ensures RunCli("init", explicit, disk, factory, resources, load1)
         == RunCli("init", explicit, disk, factory, resources, load2)
    ensures var run := RunCli("init", explicit, disk, factory, resources, load1);
            && !run.notice
            && (run.outcome.Ok? <==> OnDisk(disk, factory))
            && (run.outcome.Ok? ==>
                  run.outcome.value == CreatedConfig(if explicit.Some? then explicit.value else DefaultConfigFile))
            && (run.outcome.Err? ==> run.outcome.error == FactoryConfigMissing(factory))
    ensures explicit.Some? && !OnDisk(disk, explicit.value) && OnDisk(disk, factory) ==>
              && RunCli("init", explicit, disk, factory, resources, load1).outcome.Ok?
              && ResolveConfigFilePath(disk, explicit, factory).file.Err?
  {
  }

  /** Every command but `init` resolves first: a resolution failure is the run's
      failure, and the fallback notice is printed exactly when no explicit file is
      given and the conventional file does not exist. */
  lemma ResolutionComesFirst(command: string, explicit: Option<string>, disk: Disk, factory: string,
                             resources: string, load: string -> Value)
    requires command != "init"
    requires RunDefined(command, explicit, disk, factory, resources, load)
    ensures var run := RunCli(command, explicit, disk, factory, resources, load);
            var res := ResolveConfigFilePath(disk, explicit, factory);
            && (run.notice <==> explicit.None? && !OnDisk(disk, DefaultConfigFile))
            && (res.file.Err? ==> run.outcome == Err(res.file.error))
            && (run.outcome.Ok? ==> res.file.Ok? && OnDisk(disk, res.file.value))
  {
  }

  /** An unknown command fails with `UnknownCommand` exactly when resolution succeeds;
      before that, the resolution error is what the run reports. */
  lemma UnknownCommandAfterResolution(command: string, explicit: Option<string>, disk: Disk,
                                      factory: string, resources: string, load: string -> Value)
    requires !KnownCommand(command)
    ensures RunDefined(command, explicit, disk, factory, resources, load)
    ensures var run := RunCli(command, explicit, disk, factory, resources, load);
            var res := ResolveConfigFilePath(disk, explicit, factory);
            && run.outcome.Err?
            && (run.outcome.error == UnknownCommand(command) <==> res.file.Ok?)
            && (res.file.Err? ==> run.outcome.error == res.file.error)
  {
  }

  /** `config` only needs a resolvable configuration: it validates no key or path, and
      prints the loaded document as it is. */
  lemma IntrospectionSkipsValidation(explicit: Option<string>, disk: Disk, factory: string,
                                     resources: string, load: string -> Value)
    ensures var res := ResolveConfigFilePath(disk, explicit, factory);
            && (RunCli("config", explicit, disk, factory, resources, load).outcome.Ok? <==> res.file.Ok?)
            && (res.file.Ok? ==>
                  RunCli("config", explicit, disk, factory, resources, load).outcome
                  == Ok(PrintedConfig(load(res.file.value))))
  {
  }

  /** `setup` reads only `preprocessing.feat_extractor`: once the configuration
      resolves it prepares the normalisation template and the weights file of that
      extractor, whatever the disk holds and without checking the required keys. */
  lemma SetupReadsOnlyExtractor(explicit: Option<string>, disk: Disk, factory: string,
                                resources: string, load: string -> Value)
    requires RunDefined("setup", explicit, disk, factory, resources, load)
    ensures var run := RunCli("setup", explicit, disk, factory, resources, load);
            var res := ResolveConfigFilePath(disk, explicit, factory);
            && (run.outcome.Ok? <==> res.file.Ok?)
            && (res.file.Ok? ==>
                  var cfg := load(res.file.value);
                  && SetupDefined(cfg)
                  && run.outcome.value
                     == RanSetup(TemplatePath(resources), ModelPath(resources, SectionOf(cfg)["feat_extractor"])))
  {
  }

  /** `preprocess` calls the pipeline exactly when the configuration resolves and all
      three gates pass on the loaded document. */
  lemma PipelineOnlyAfterGates(explicit: Option<string>, disk: Disk, factory: string,
                               resources: string, load: string -> Value)
    requires RunDefined("preprocess", explicit, disk, factory, resources, load)
    ensures var run := RunCli("preprocess", explicit, disk, factory, resources, load);
            var res := ResolveConfigFilePath(disk, explicit, factory);
            && (run.outcome.Ok? <==> res.file.Ok? && GatesPass(disk, load(res.file.value), resources))
            && (run.outcome.Ok? ==> run.outcome.value.RanPipeline?)
  {
    var res := ResolveConfigFilePath(disk, explicit, factory);
    if res.file.Ok? {
      PreprocessGates(disk, load(res.file.value), resources);
    }
  }
}

=== FILE: config_store.dfy ===
/** The loaded configuration as a tagged-union tree, a dotted-key lookup that tells an
    absent key from a null one from a present one, and `_config_has_key` as its
    "present" test. */
module ConfigStore {
  import opened Text

  /** The separator of dotted keys. */
  const Dot: char := '.'

  /** A leaf of the document. */
  datatype Atom = Str(text: string) | Int(n: int) | Real(x: real) | Bool(b: bool)

  /** A configuration value: null, a leaf, a list, or a nested mapping. */
  datatype Value =
    | Null
    | Scalar(atom: Atom)
    | Seq(items: seq<Value>)
    | Map(entries: map<string, Value>)

  /** What a dotted-key lookup finds: no such key, an explicit null, or a value. */
  datatype Lookup = Absent | NullValue | Present(value: Value)

  /** Python truthiness of the value the configuration hands out for a node. */
  predicate Truthy(v: Value)
  {
    match v
    case Null => false
    case Scalar(a) =>
      (match a
       case Str(t) => t != ""
       case Int(n) => n != 0
       case Real(x) => x != 0.0
       case Bool(b) => b)
    case Seq(items) => |items| > 0
    case Map(entries) => |entries| > 0
  }

  /** Every node the walk indexes into is a mapping. Indexing a null, a leaf or a list
      with a name raises an error that the lookup does not catch, so lookups are
      only defined on walkable keys. */
  predicate Walkable(cfg: Value, segs: seq<string>)
    decreases |segs|
  {
    || |segs| == 0
    || (&& cfg.Map?
        && (segs[0] in cfg.entries ==> Walkable(cfg.entries[segs[0]], segs[1..])))
  }

  /** The loop of `_config_has_key`: index one segment at a time; a missing name is
      `Absent`, a final null is `NullValue`. */
  function Select(cfg: Value, segs: seq<string>): (r: Lookup)
    requires Walkable(cfg, segs)
    decreases |segs|
  {
    if |segs| == 0 then (if cfg.Null? then NullValue else Present(cfg))
    else if segs[0] !in cfg.entries then Absent
    else Select(cfg.entries[segs[0]], segs[1..])
  }

  /** The dotted key can be looked up without raising. */
  predicate Addressable(cfg: Value, key: string)
  {
    Walkable(cfg, Split(key, Dot))
  }

  /** `_config_has_key(cfg, key)`: the key is there and not null. */
  predicate HasKey(cfg: Value, key: string)
    requires Addressable(cfg, key)
  {
    Select(cfg, Split(key, Dot)).Present?
  }

  /** Segment `i` of `segs` is the first one missing: the walk reached a mapping
      through the segments before it, and that mapping lacks it. */
  ghost predicate MissingBelow(cfg: Value, segs: seq<string>, i: nat)
  {
    && i < |segs|
    && Walkable(cfg, segs[..i])
    && var above := Select(cfg, segs[..i]);
       above.Present? && above.value.Map? && segs[i] !in above.value.entries
  }

  /** A lookup never hands out a null as a present value. */
  lemma {:induction false} PresentIsNotNull(cfg: Value, segs: seq<string>)
    requires Walkable(cfg, segs)
    ensures Select(cfg, segs).Present? ==> Select(cfg, segs).value != Null
    decreases |segs|
  {
    if |segs| > 0 && segs[0] in cfg.entries {
      PresentIsNotNull(cfg.entries[segs[0]], segs[1..]);
    }
  }

  /** A walkable key is walkable on every prefix, and looking up a longer key goes
      through the value found at a shorter one: an absent prefix makes the whole key
      absent, a null prefix can only be the whole key, and a present prefix hands
      the rest of the key to its value. */
  lemma {:induction false} SelectAppend(cfg: Value, a: seq<string>, b: seq<string>)
    requires Walkable(cfg, a + b)
    ensures Walkable(cfg, a)
    ensures Select(cfg, a).Absent? ==> Select(cfg, a + b).Absent?
    ensures Select(cfg, a).NullValue? ==> b == [] && Select(cfg, a + b).NullValue?
    ensures Select(cfg, a).Present? ==>
              Walkable(Select(cfg, a).value, b)
              && Select(cfg, a + b) == Select(Select(cfg, a).value, b)
    decreases |a|
  {
    if |a| == 0 {
      assert a + b == b;
      if b != [] {
        assert cfg.Map?;
      }
    } else {
      assert (a + b)[0] == a[0] && (a + b)[1..] == a[1..] + b;
      if a[0] in cfg.entries {
        SelectAppend(cfg.entries[a[0]], a[1..], b);
      }
    }
  }

  /** A lookup is `Absent` exactly when some segment is the first missing one. */
  lemma {:induction false} AbsentIffSegmentMissing(cfg: Value, segs: seq<string>)
    requires Walkable(cfg, segs)
    ensures Select(cfg, segs).Absent? <==> exists i: nat :: MissingBelow(cfg, segs, i)
    decreases |segs|
  {
    if |segs| > 0 {
      if segs[0] !in cfg.entries {
        assert segs[..0] == [];
        assert MissingBelow(cfg, segs, 0);
      } else {
        var child := cfg.entries[segs[0]];
        AbsentIffSegmentMissing(child, segs[1..]);
        assert !MissingBelow(cfg, segs, 0) by {
          assert segs[..0] == [];
        }
        forall i: nat | 1 <= i < |segs|
          ensures MissingBelow(cfg, segs, i) <==> MissingBelow(child, segs[1..], i - 1)
        {
          var pre := segs[..i];
          assert pre[0] == segs[0] && pre[1..] == segs[1..][..i - 1];
          assert segs[1..][i - 1] == segs[i];
        }
        if Select(child, segs[1..]).Absent? {
          var i: nat :| MissingBelow(child, segs[1..], i);
          assert MissingBelow(cfg, segs, i + 1);
        }
      }
    }
  }

  /** `_config_has_key` is false exactly when some segment of the key is missing from
      the mapping the walk reached, or the value at the end is null. Any other final
      value, `false`, `0` and `""` included, makes the key present. */
  lemma HasKeyIff(cfg: Value, key: string)
    requires Addressable(cfg, key)
    ensures !HasKey(cfg, key)
        <==> (exists i: nat :: MissingBelow(cfg, Split(key, Dot), i))
             || Select(cfg, Split(key, Dot)) == NullValue
    ensures HasKey(cfg, key) ==> Select(cfg, Split(key, Dot)).value != Null
  {
    AbsentIffSegmentMissing(cfg, Split(key, Dot));
    PresentIsNotNull(cfg, Split(key, Dot));
  }

  /** A key of two plain names joined by a dot splits into those two names. */
  lemma TwoSegments(section: string, name: string)
    requires Dot !in section && Dot !in name
    ensures Split(section + [Dot] + name, Dot) == [section, name]
  {
    SplitCons(section, name, Dot);
    SplitPiece(name, Dot);
  }

  /** A lookup of `section.name` that does not raise means the top level is a mapping
      and so is the section when present, and the key is found exactly when the
      section holds `name` with a non-null value, whatever that value's truthiness. */
  lemma SectionKey(cfg: Value, section: string, name: string)
    requires Dot !in section && Dot !in name
    requires Addressable(cfg, section + [Dot] + name)
    ensures cfg.Map? && (section in cfg.entries ==> cfg.entries[section].Map?)
    ensures HasKey(cfg, section + [Dot] + name)
        <==> section in cfg.entries && name in cfg.entries[section].entries
             && cfg.entries[section].entries[name] != Null
  {
    TwoSegments(section, name);
    var parts := [section, name];
    var rest := parts[1..];
    assert rest == [name] && rest[1..] == [];
    if section in cfg.entries {
      var sec := cfg.entries[section];
      assert Walkable(sec, rest);
      assert Select(cfg, parts) == Select(sec, rest);
      if name in sec.entries {
        assert Select(sec, rest) == Select(sec.entries[name], []);
      }
    }
  }
}

=== FILE: path_check.dfy ===
/** The filesystem as an abstract set of existing locations, and `check_path_exists`:
    the walk that rebuilds a path one component at a time from the root `/` and
    names the first component whose cumulative location does not exist. */
module PathCheck {
  import opened Text

  /** The path separator (`os.path.sep` on POSIX). */
  const Sep: char := '/'

  /** A location as the sequence of names leading to it from the root; `[]` is the
      root itself. */
  type Path = seq<string>

  /** The locations that exist (what `os.path.exists` answers). */
  type FileSystem = set<Path>

  /** The filesystem together with the working directory that relative path strings
      are resolved against by `pathlib`. */
  datatype Disk = Disk(fs: FileSystem, cwd: Path)

  /** Outcome of the walk: the whole path exists, or the named component is the first
      one whose cumulative location is missing. */
  datatype SegmentResult = Exists | MissingAt(segment: string)

  /** `os.path.join(current, name)` for a name holding no separator: an empty name
      leaves the location where it is. */
  function Extend(current: Path, name: string): Path
  {
    if name == "" then current else current + [name]
  }

  /** The location reached from `current` by joining `names` one after the other. */
  function Descend(current: Path, names: seq<string>): Path
    decreases |names|
  {
    if |names| == 0 then current else Descend(Extend(current, names[0]), names[1..])
  }

  /** The cumulative location after the first `j + 1` of `names`. */
  function Cumulative(current: Path, names: seq<string>, j: nat): Path
    requires j < |names|
  {
    Descend(current, names[..j + 1])
  }

  /** The first `k` cumulative locations exist. */
  ghost predicate ExistUpTo(fs: FileSystem, current: Path, names: seq<string>, k: nat)
    requires k <= |names|
  {
    forall j :: 0 <= j < k ==> Cumulative(current, names, j) in fs
  }

  /** Component `k` is the first whose cumulative location is missing. */
  ghost predicate FirstMissing(fs: FileSystem, current: Path, names: seq<string>, k: nat)
  {
    && k < |names|
    && ExistUpTo(fs, current, names, k)
    && Cumulative(current, names, k) !in fs
  }

  /** Every cumulative location of `path`, read from the root, exists. */
  ghost predicate FullyExists(fs: FileSystem, path: string)
  {
    var names := Split(path, Sep);
    ExistUpTo(fs, [], names, |names|)
  }

  /** The loop of `check_path_exists`, with `current` the location built so far. */
  function Walk(fs: FileSystem, current: Path, names: seq<string>): SegmentResult
    decreases |names|
  {
    if |names| == 0 then Exists
    else
      var next := Extend(current, names[0]);
      if next !in fs then MissingAt(names[0]) else Walk(fs, next, names[1..])
  }

  /** `check_path_exists(path)`: split on the separator and walk from the root, so a
      relative path is read as if it started with `/`. */
  function CheckPathExists(fs: FileSystem, path: string): (r: SegmentResult)
    ensures r.MissingAt? ==> r.segment in Split(path, Sep) && Sep !in r.segment
  {
    WalkSpec(fs, [], Split(path, Sep));
    Walk(fs, [], Split(path, Sep))
  }

  /** The location `pathlib.Path(s)` names: absolute strings from the root, relative
      ones from the working directory. */
  function Locate(disk: Disk, s: string): Path
  {
    Descend(if |s| > 0 && s[0] == Sep then [] else disk.cwd, Split(s, Sep))
  }

  /** `Path(s).exists()`. */
  predicate OnDisk(disk: Disk, s: string)
  {
    Locate(disk, s) in disk.fs
  }

  /** Joining one more name extends the descent by that name. */
  lemma {:induction false} DescendSnoc(current: Path, names: seq<string>, name: string)
    ensures Descend(current, names + [name]) == Extend(Descend(current, names), name)
    decreases |names|
  {
    if |names| > 0 {
      assert (names + [name])[1..] == names[1..] + [name];
      DescendSnoc(Extend(current, names[0]), names[1..], name);
    }
  }

  /** The first cumulative location is the first step of the walk. */
  lemma CumulativeFirst(current: Path, names: seq<string>)
    requires |names| >= 1
    ensures Cumulative(current, names, 0) == Extend(current, names[0])
  {
    var first := names[..1];
    assert first[0] == names[0] && first[1..] == [];
    assert Descend(Extend(current, names[0]), []) == Extend(current, names[0]);
  }

  /** A later cumulative location, seen from after the first step. */
  lemma CumulativeShift(current: Path, names: seq<string>, j: nat)
    requires 1 <= j < |names|
    ensures Cumulative(current, names, j)
         == Cumulative(Extend(current, names[0]), names[1..], j - 1)
  {
    assert names[..j + 1][1..] == names[1..][..j];
  }

  /** Reading `ExistUpTo` and `FirstMissing` one step further down the walk. */
  lemma ShiftFirstMissing(fs: FileSystem, current: Path, names: seq<string>, k: nat)
    requires 1 <= k <= |names|
    ensures ExistUpTo(fs, current, names, k)
        <==> Extend(current, names[0]) in fs
             && ExistUpTo(fs, Extend(current, names[0]), names[1..], k - 1)
    ensures k < |names| ==>
              (FirstMissing(fs, current, names, k)
               <==> Extend(current, names[0]) in fs
                    && FirstMissing(fs, Extend(current, names[0]), names[1..], k - 1))
  {
    var next := Extend(current, names[0]);
    CumulativeFirst(current, names);
    forall j | 1 <= j < |names|
      ensures Cumulative(current, names, j) == Cumulative(next, names[1..], j - 1)
    {
      CumulativeShift(current, names, j);
    }
    if ExistUpTo(fs, current, names, k) {
      forall j | 0 <= j < k - 1
        ensures Cumulative(next, names[1..], j) in fs
      {
        assert Cumulative(current, names, j + 1) in fs;
      }
    }
    if next in fs && ExistUpTo(fs, next, names[1..], k - 1) {
      forall j | 0 <= j < k
        ensures Cumulative(current, names, j) in fs
      {
        if j > 0 {
          assert Cumulative(next, names[1..], j - 1) in fs;
        }
      }
    }
  }

  /** The walk answers `Exists` exactly when every cumulative location exists; it
      answers `MissingAt(names[k])` for the first component `k` whose cumulative
      location is missing, whatever the components after `k` are; and a `MissingAt`
      answer always names such a first missing component. */
  lemma {:induction false} WalkSpec(fs: FileSystem, current: Path, names: seq<string>)
    ensures Walk(fs, current, names) == Exists <==> ExistUpTo(fs, current, names, |names|)
    ensures forall k: nat | FirstMissing(fs, current, names, k)
              :: Walk(fs, current, names) == MissingAt(names[k])
    ensures Walk(fs, current, names).MissingAt? ==>
              exists k: nat :: FirstMissing(fs, current, names, k)
                          && Walk(fs, current, names).segment == names[k]
    decreases |names|
  {
    if |names| > 0 {
      var next := Extend(current, names[0]);
      CumulativeFirst(current, names);
      ShiftFirstMissing(fs, current, names, |names|);
      forall k | 1 <= k < |names|
        ensures FirstMissing(fs, current, names, k)
            <==> next in fs && FirstMissing(fs, next, names[1..], k - 1)
      {
        ShiftFirstMissing(fs, current, names, k);
      }
      if next !in fs {
        assert FirstMissing(fs, current, names, 0);
        forall k: nat | FirstMissing(fs, current, names, k)
          ensures k == 0
        {
        }
      } else {
        WalkSpec(fs, next, names[1..]);
        assert !FirstMissing(fs, current, names, 0);
        forall k: nat | FirstMissing(fs, current, names, k)
          ensures Walk(fs, current, names) == MissingAt(names[k])
        {
          assert FirstMissing(fs, next, names[1..], k - 1);
          assert names[1..][k - 1] == names[k];
        }
        if Walk(fs, next, names[1..]).MissingAt? {
          var k': nat :| FirstMissing(fs, next, names[1..], k')
                    && Walk(fs, next, names[1..]).segment == names[1..][k'];
          assert FirstMissing(fs, current, names, k' + 1);
        }
      }
    }
  }

  /** `check_path_exists` returns `(True, None)` exactly when the whole path exists
      from the root down; a `(False, d)` answer names as `d` the first component whose
      cumulative location is missing, every earlier one existing; and once component
      `k` is the first missing one, the components after it make no difference. */
  lemma CheckPathExistsSpec(fs: FileSystem, path: string)
    ensures CheckPathExists(fs, path) == Exists <==> FullyExists(fs, path)
    ensures CheckPathExists(fs, path).MissingAt? ==>
              exists k: nat :: FirstMissing(fs, [], Split(path, Sep), k)
                               && CheckPathExists(fs, path).segment == Split(path, Sep)[k]
    ensures forall k: nat | FirstMissing(fs, [], Split(path, Sep), k)
              :: CheckPathExists(fs, path) == MissingAt(Split(path, Sep)[k])
  {
    WalkSpec(fs, [], Split(path, Sep));
  }

  /** A relative path is checked from the root: while the root exists, prefixing `/`
      changes nothing. */
  lemma RelativeAnchoredAtRoot(fs: FileSystem, path: string)
    requires [] in fs
    ensures CheckPathExists(fs, [Sep] + path) == CheckPathExists(fs, path)
  {
    var s := [Sep] + path;
    assert s[0] == Sep && s[1..] == path;
    assert Split(s, Sep) == [""] + Split(path, Sep);
    assert ([""] + Split(path, Sep))[1..] == Split(path, Sep);
  }

  /** For an absolute path the walk agrees with `pathlib`: a path that exists from
      the root down is on disk. */
  lemma AbsoluteFoundIsOnDisk(disk: Disk, path: string)
    requires |path| > 0 && path[0] == Sep
    requires CheckPathExists(disk.fs, path) == Exists
    ensures OnDisk(disk, path)
  {
    var names := Split(path, Sep);
    WalkSpec(disk.fs, [], names);
    assert Cumulative([], names, |names| - 1) in disk.fs;
    assert names[..|names|] == names;
  }

  /** Because the walk starts at the root rather than the working directory, a
      one-component relative path that `pathlib` finds under the working directory
      is still reported missing when no such name sits directly under the root. */
  lemma RelativePathIgnoresWorkingDirectory(disk: Disk, name: string)
    requires name != "" && Sep !in name
    requires disk.cwd + [name] in disk.fs && [name] !in disk.fs
    ensures OnDisk(disk, name)
    ensures CheckPathExists(disk.fs, name) == MissingAt(name)
  {
    SplitPiece(name, Sep);
    var names := [name];
    assert names[1..] == [];
    assert name[0] in name;
    assert Descend(disk.cwd, names) == Descend(disk.cwd + [name], []);
    assert Locate(disk, name) == disk.cwd + [name];
    assert Extend([], name) == [name];
  }

  /** The walk as a loop that records every location it asks about: the answer is
      the walk's, every probed location is the next cumulative one, all but the last
      probed exist, and on a miss nothing after the missing component is probed. */
  method WalkLoop(fs: FileSystem, names: seq<string>) returns (r: SegmentResult, probes: seq<Path>)
    ensures r == Walk(fs, [], names)
    ensures |probes| <= |names|
    ensures forall j :: 0 <= j < |probes| ==> probes[j] == Cumulative([], names, j)
    ensures forall j :: 0 <= j < |probes| - 1 ==> probes[j] in fs
    ensures r.Exists? ==> |probes| == |names| && (forall j :: 0 <= j < |probes| ==> probes[j] in fs)
    ensures r.MissingAt? ==> |probes| > 0 && probes[|probes| - 1] !in fs && r.segment == names[|probes| - 1]
  {
    var current: Path := [];
    probes := [];
    var i := 0;
    while i < |names|
      invariant 0 <= i <= |names|
      invariant current == Descend([], names[..i])
      invariant |probes| == i
      invariant forall j :: 0 <= j < i ==> probes[j] == Cumulative([], names, j) && probes[j] in fs
      invariant Walk(fs, [], names) == Walk(fs, current, names[i..])
    {
      var next := Extend(current, names[i]);
      assert next == Cumulative([], names, i) by {
        DescendSnoc([], names[..i], names[i]);
        assert names[..i + 1] == names[..i] + [names[i]];
      }
      assert Walk(fs, current, names[i..])
          == if next !in fs then MissingAt(names[i]) else Walk(fs, next, names[i + 1..]) by {
        assert names[i..][0] == names[i] && names[i..][1..] == names[i + 1..];
      }
      probes := probes + [next];
      current := next;
      if current !in fs {
        r := MissingAt(names[i]);
        return;
      }
      i := i + 1;
    }
    assert names[i..] == [];
    r := Exists;
  }

  /** `check_path_exists` as the loop over the components of `path`. */
  method CheckPathExistsLoop(fs: FileSystem, path: string) returns (r: SegmentResult, probes: seq<Path>)
    ensures r == CheckPathExists(fs, path)
    ensures |probes| <= |Split(path, Sep)|
    ensures forall j :: 0 <= j < |probes| ==> probes[j] == Cumulative([], Split(path, Sep), j)
    ensures r.Exists? ==> |probes| == |Split(path, Sep)| && (forall j :: 0 <= j < |probes| ==> probes[j] in fs)
    ensures r.MissingAt? ==> |probes| > 0 && probes[|probes| - 1] !in fs
                             && (forall j :: 0 <= j < |probes| - 1 ==> probes[j] in fs)
                             && r.segment == Split(path, Sep)[|probes| - 1]
  {
    r, probes := WalkLoop(fs, Split(path, Sep));
  }
}

=== FILE: requirements.dfy ===
/** `require_configs` and `check_and_handle_path`: first every required key of a
    section is looked up and all missing ones are reported together; only when none
    is missing are the path-valued keys checked on disk, stopping at the first path
    that does not exist. */
module Requirements {
  import opened Text
  import opened Results
  import opened PathCheck
  import opened ConfigStore

  /** `f"{prefix}.{key}"`. */
  function Qualify(prefix: string, key: string): string
  {
    prefix + [Dot] + key
  }

  /** The required keys with their section prefix, in the given order. */
  function QualifyAll(prefix: string, keys: seq<string>): seq<string>
  {
    seq(|keys|, i requires 0 <= i < |keys| => Qualify(prefix, keys[i]))
  }

  /** Every key in `qs` can be looked up without raising. */
  predicate AllAddressable(cfg: Value, qs: seq<string>)
  {
    forall q :: q in qs ==> Addressable(cfg, q)
  }

  /** The `missing` list of `require_configs`: the keys of `qs` that are absent or
      null. */
  function Missing(cfg: Value, qs: seq<string>): (missing: seq<string>)
    requires AllAddressable(cfg, qs)
    ensures forall q :: q in missing <==> q in qs && !HasKey(cfg, q)
    ensures |missing| <= |qs|
    decreases |qs|
  {
    if |qs| == 0 then []
    else (if HasKey(cfg, qs[0]) then [] else [qs[0]]) + Missing(cfg, qs[1..])
  }

  /** The missing list of a concatenation is the concatenation of the missing lists,
      so the missing keys come out in the order they were required. */
  lemma {:induction false} MissingAppend(cfg: Value, a: seq<string>, b: seq<string>)
    requires AllAddressable(cfg, a) && AllAddressable(cfg, b)
    ensures AllAddressable(cfg, a + b)
    ensures Missing(cfg, a + b) == Missing(cfg, a) + Missing(cfg, b)
    decreases |a|
  {
    if |a| > 0 {
      var ab := a + b;
      assert ab[0] == a[0] && ab[1..] == a[1..] + b;
      assert AllAddressable(cfg, a[1..]) by {
        forall q | q in a[1..] ensures Addressable(cfg, q) {
          assert q in a;
        }
      }
      MissingAppend(cfg, a[1..], b);
      var head := if HasKey(cfg, a[0]) then [] else [a[0]];
      assert Missing(cfg, a) == head + Missing(cfg, a[1..]);
      assert Missing(cfg, ab) == head + Missing(cfg, a[1..] + b);
    } else {
      assert a + b == b;
    }
  }

  /** A value that can be used as a path: a string. Splitting a number, a boolean, a
      list or a mapping raises, and so does `pathlib.Path` on any of them. */
  predicate PathText(v: Value)
  {
    v.Scalar? && v.atom.Str?
  }

  /** The path-valued key `key` of section `prefix` can be looked up and is present. */
  predicate PathPresent(cfg: Value, prefix: string, key: string)
  {
    Addressable(cfg, Qualify(prefix, key)) && HasKey(cfg, Qualify(prefix, key))
  }

  /** `OmegaConf.select(cfg, f"{prefix}.{key}")` for a present key. */
  function SelectPath(cfg: Value, prefix: string, key: string): Value
    requires PathPresent(cfg, prefix, key)
  {
    Select(cfg, Split(Qualify(prefix, key), Dot)).value
  }

  /** The values checked for one path key: the elements of a list, the value itself
      otherwise. */
  function PathsOf(v: Value): seq<Value>
  {
    if v.Seq? then v.items else [v]
  }

  /** `check_and_handle_path(path, key, prefix)`: stop with the missing segment when
      the path does not exist from the root down. */
  function CheckAndHandlePath(fs: FileSystem, path: string, key: string, prefix: string): (r: Outcome<CliError>)
    ensures r.Fail? ==>
              && r.error.BadPath? && r.error.path == path && r.error.key == key && r.error.prefix == prefix
              && r.error.segment in Split(path, Sep)
  {
    match CheckPathExists(fs, path)
    case Exists => Pass
    case MissingAt(d) => Fail(BadPath(path, d, key, prefix))
  }

  /** Every value the checks of `paths` reach can be split: each one is a string, up
      to and including the first whose path does not exist. Values after that one
      are never read. */
  predicate PathsReady(fs: FileSystem, paths: seq<Value>)
    decreases |paths|
  {
    || |paths| == 0
    || (&& PathText(paths[0])
        && (CheckPathExists(fs, paths[0].atom.text) == Exists ==> PathsReady(fs, paths[1..])))
  }

  /** The inner loop over the elements of a list-valued path key. */
  function CheckEach(fs: FileSystem, paths: seq<Value>, key: string, prefix: string): (r: Outcome<CliError>)
    requires PathsReady(fs, paths)
    ensures r.Fail? ==>
              && r.error.BadPath? && Scalar(Str(r.error.path)) in paths
              && r.error.key == key && r.error.prefix == prefix
    decreases |paths|
  {
    if |paths| == 0 then Pass
    else match CheckAndHandlePath(fs, paths[0].atom.text, key, prefix)
         case Pass => CheckEach(fs, paths[1..], key, prefix)
         case Fail(e) => Fail(e)
  }

  /** One path-valued key: element by element for a list, once otherwise. */
  function CheckPathKey(fs: FileSystem, v: Value, key: string, prefix: string): (r: Outcome<CliError>)
    requires PathsReady(fs, PathsOf(v))
    ensures r.Fail? ==> r.error.BadPath? && r.error.key == key && r.error.prefix == prefix
  {
    if v.Seq? then CheckEach(fs, v.items, key, prefix)
    else CheckAndHandlePath(fs, v.atom.text, key, prefix)
  }

  /** Every path key the outer loop reaches is present, and the values its checks
      reach are strings. Keys after the first failing one are never read. */
  predicate KeysReady(fs: FileSystem, cfg: Value, prefix: string, pathKeys: seq<string>)
    decreases |pathKeys|
  {
    || |pathKeys| == 0
    || (&& PathPresent(cfg, prefix, pathKeys[0])
        && PathsReady(fs, PathsOf(SelectPath(cfg, prefix, pathKeys[0])))
        && (CheckPathKey(fs, SelectPath(cfg, prefix, pathKeys[0]), pathKeys[0], prefix).Pass? ==>
              KeysReady(fs, cfg, prefix, pathKeys[1..])))
  }

  /** The outer loop over `paths_to_check`, stopping at the first failure. */
  function CheckPathKeys(fs: FileSystem, cfg: Value, prefix: string, pathKeys: seq<string>): (r: Outcome<CliError>)
    requires KeysReady(fs, cfg, prefix, pathKeys)
    ensures r.Fail? ==> r.error.BadPath? && r.error.key in pathKeys && r.error.prefix == prefix
    decreases |pathKeys|
  {
    if |pathKeys| == 0 then Pass
    else match CheckPathKey(fs, SelectPath(cfg, prefix, pathKeys[0]), pathKeys[0], prefix)
         case Pass => CheckPathKeys(fs, cfg, prefix, pathKeys[1..])
         case Fail(e) => Fail(e)
  }

  /** What `require_configs` asks of its arguments: every required key can be looked
      up, every path key is also a required key, and, once no key is missing so that
      the path phase runs, every value that phase reaches is a string. */
  predicate RequireConfigsDefined(fs: FileSystem, cfg: Value, keys: seq<string>, prefix: string, pathKeys: seq<string>)
  {
    && AllAddressable(cfg, QualifyAll(prefix, keys))
    && (forall k :: k in pathKeys ==> k in keys)
    && (Missing(cfg, QualifyAll(prefix, keys)) == [] ==> KeysReady(fs, cfg, prefix, pathKeys))
  }

  /** A required key of the section is among the qualified keys. */
  lemma QualifiedIn(prefix: string, keys: seq<string>, k: string)
    requires k in keys
    ensures Qualify(prefix, k) in QualifyAll(prefix, keys)
  {
    var i :| 0 <= i < |keys| && keys[i] == k;
    assert QualifyAll(prefix, keys)[i] == Qualify(prefix, k);
  }

  /** Once no required key is missing, every path key is present. */
  lemma PathKeysPresent(cfg: Value, keys: seq<string>, prefix: string, pathKeys: seq<string>)
    requires AllAddressable(cfg, QualifyAll(prefix, keys))
    requires forall k :: k in pathKeys ==> k in keys
    requires Missing(cfg, QualifyAll(prefix, keys)) == []
    ensures forall k :: k in pathKeys ==> PathPresent(cfg, prefix, k)
  {
    forall k | k in pathKeys
      ensures PathPresent(cfg, prefix, k)
    {
      QualifiedIn(prefix, keys, k);
    }
  }

  /** `require_configs(cfg, keys, prefix, paths_to_check)`. */
  function RequireConfigs(fs: FileSystem, cfg: Value, keys: seq<string>, prefix: string, pathKeys: seq<string>): (r: Outcome<CliError>)
    requires RequireConfigsDefined(fs, cfg, keys, prefix, pathKeys)
    ensures r.Fail? ==>
              || (r.error.MissingKeys? && |r.error.keys| > 0)
              || (r.error.BadPath? && r.error.key in pathKeys && r.error.prefix == prefix)
  {
    var missing := Missing(cfg, QualifyAll(prefix, keys));
    if |missing| > 0 then Fail(MissingKeys(missing))
    else CheckPathKeys(fs, cfg, prefix, pathKeys)
  }

  /** Once `require_configs` passes, every required key of the section is present. */
  lemma PassedKeyPresent(fs: FileSystem, cfg: Value, keys: seq<string>, prefix: string, pathKeys: seq<string>, k: string)
    requires RequireConfigsDefined(fs, cfg, keys, prefix, pathKeys)
    requires RequireConfigs(fs, cfg, keys, prefix, pathKeys).Pass?
    requires k in keys
    ensures Addressable(cfg, Qualify(prefix, k)) && HasKey(cfg, Qualify(prefix, k))
  {
    QualifiedIn(prefix, keys, k);
  }

  /** Once `require_configs` passes for a section named without dots, the section is
      a mapping holding each plainly named required key with a non-null value. */
  lemma PassedSectionFilled(fs: FileSystem, cfg: Value, keys: seq<string>, prefix: string, pathKeys: seq<string>, k: string)
    requires RequireConfigsDefined(fs, cfg, keys, prefix, pathKeys)
    requires RequireConfigs(fs, cfg, keys, prefix, pathKeys).Pass?
    requires k in keys && Dot !in prefix && Dot !in k
    ensures cfg.Map? && prefix in cfg.entries && cfg.entries[prefix].Map?
    ensures k in cfg.entries[prefix].entries && cfg.entries[prefix].entries[k] != Null
  {
    PassedKeyPresent(fs, cfg, keys, prefix, pathKeys, k);
    SectionKey(cfg, prefix, k);
  }

  /** Once `require_configs` passes for a section named without dots and keys named
      without dots, the section is a mapping holding every required key with a
      non-null value. */
  lemma PassedSectionFilledAll(fs: FileSystem, cfg: Value, keys: seq<string>, prefix: string, pathKeys: seq<string>)
    requires RequireConfigsDefined(fs, cfg, keys, prefix, pathKeys)
    requires RequireConfigs(fs, cfg, keys, prefix, pathKeys).Pass?
    requires |keys| > 0 && Dot !in prefix && forall k :: k in keys ==> Dot !in k
    ensures cfg.Map? && prefix in cfg.entries && cfg.entries[prefix].Map?
    ensures forall k :: k in keys ==> k in cfg.entries[prefix].entries && cfg.entries[prefix].entries[k] != Null
  {
    PassedSectionFilled(fs, cfg, keys, prefix, pathKeys, keys[0]);
    forall k | k in keys
      ensures k in cfg.entries[prefix].entries && cfg.entries[prefix].entries[k] != Null
    {
      PassedSectionFilled(fs, cfg, keys, prefix, pathKeys, k);
    }
  }

  /** One path check to run: the value to check and the key it came from. */
  datatype Probe = Probe(path: Value, key: string)

  /** A key's values, each tagged with the key. */
  function Tag(paths: seq<Value>, key: string): (ps: seq<Probe>)
    ensures |ps| == |paths|
    ensures forall i :: 0 <= i < |ps| ==> ps[i] == Probe(paths[i], key)
    decreases |paths|
  {
    if |paths| == 0 then [] else [Probe(paths[0], key)] + Tag(paths[1..], key)
  }

  /** Every path check of the path phase, flattened in the order they run. */
  function Probes(cfg: Value, prefix: string, pathKeys: seq<string>): seq<Probe>
    requires forall k :: k in pathKeys ==> PathPresent(cfg, prefix, k)
    decreases |pathKeys|
  {
    if |pathKeys| == 0 then []
    else Tag(PathsOf(SelectPath(cfg, prefix, pathKeys[0])), pathKeys[0])
         + Probes(cfg, prefix, pathKeys[1..])
  }

  /** The probe's value is a path that exists from the root down. */
  ghost predicate ProbeHolds(fs: FileSystem, p: Probe)
  {
    PathText(p.path) && FullyExists(fs, p.path.atom.text)
  }

  /** The flat reading of readiness: each probe the checks reach is a string. */
  predicate ProbesReady(fs: FileSystem, ps: seq<Probe>)
    decreases |ps|
  {
    || |ps| == 0
    || (&& PathText(ps[0].path)
        && (CheckPathExists(fs, ps[0].path.atom.text) == Exists ==> ProbesReady(fs, ps[1..])))
  }

  /** Check `j` is the first that fails: every earlier one holds, and check `j` is a
      string naming a path that does not exist from the root down. */
  ghost predicate FirstBadProbe(fs: FileSystem, ps: seq<Probe>, j: nat)
  {
    && j < |ps|
    && (forall i :: 0 <= i < j ==> ProbeHolds(fs, ps[i]))
    && PathText(ps[j].path)
    && !FullyExists(fs, ps[j].path.atom.text)
  }

  /** `e` is the error `check_and_handle_path` raises for the probe: its path, the
      path's first missing component, its key and the section. */
  predicate BadProbeError(fs: FileSystem, p: Probe, prefix: string, e: CliError)
  {
    && PathText(p.path)
    && e.BadPath?
    && e.path == p.path.atom.text
    && CheckPathExists(fs, p.path.atom.text) == MissingAt(e.segment)
    && e.key == p.key
    && e.prefix == prefix
  }

  /** The flat reading of the path phase: run the checks in order and stop at the
      first bad one. */
  function CheckProbes(fs: FileSystem, ps: seq<Probe>, prefix: string): Outcome<CliError>
    requires ProbesReady(fs, ps)
    decreases |ps|
  {
    if |ps| == 0 then Pass
    else match CheckAndHandlePath(fs, ps[0].path.atom.text, ps[0].key, prefix)
         case Pass => CheckProbes(fs, ps[1..], prefix)
         case Fail(e) => Fail(e)
  }

  /** Running two batches of checks one after the other: the second batch is reached,
      and must be ready, only when the first passes. */
  lemma {:induction false} CheckProbesAppend(fs: FileSystem, a: seq<Probe>, b: seq<Probe>, prefix: string)
    requires ProbesReady(fs, a)
    requires CheckProbes(fs, a, prefix).Pass? ==> ProbesReady(fs, b)
    ensures ProbesReady(fs, a + b)
    ensures CheckProbes(fs, a + b, prefix)
         == (if CheckProbes(fs, a, prefix).Pass? then CheckProbes(fs, b, prefix) else CheckProbes(fs, a, prefix))
    decreases |a|
  {
    if |a| == 0 {
      assert a + b == b;
    } else {
      assert (a + b)[0] == a[0] && (a + b)[1..] == a[1..] + b;
      if CheckPathExists(fs, a[0].path.atom.text) == Exists {
        CheckProbesAppend(fs, a[1..], b, prefix);
      }
    }
  }

  /** The inner loop is the flat reading of the key's tagged values. */
  lemma {:induction false} CheckEachIsFlat(fs: FileSystem, paths: seq<Value>, key: string, prefix: string)
    requires PathsReady(fs, paths)
    ensures ProbesReady(fs, Tag(paths, key))
    ensures CheckEach(fs, paths, key, prefix) == CheckProbes(fs, Tag(paths, key), prefix)
    decreases |paths|
  {
    if |paths| > 0 {
      var ps := Tag(paths, key);
      assert ps[1..] == Tag(paths[1..], key);
      if CheckPathExists(fs, paths[0].atom.text) == Exists {
        CheckEachIsFlat(fs, paths[1..], key, prefix);
      }
    }
  }

  /** One key's checks are the flat reading of its tagged values. */
  lemma CheckPathKeyIsFlat(fs: FileSystem, v: Value, key: string, prefix: string)
    requires PathsReady(fs, PathsOf(v))
    ensures ProbesReady(fs, Tag(PathsOf(v), key))
    ensures CheckPathKey(fs, v, key, prefix) == CheckProbes(fs, Tag(PathsOf(v), key), prefix)
  {
    CheckEachIsFlat(fs, PathsOf(v), key, prefix);
  }

  /** The nested loops of the path phase are the flat reading of all its checks. */
  lemma {:induction false} CheckPathKeysIsFlat(fs: FileSystem, cfg: Value, prefix: string, pathKeys: seq<string>)
    requires forall k :: k in pathKeys ==> PathPresent(cfg, prefix, k)
    requires KeysReady(fs, cfg, prefix, pathKeys)
    ensures ProbesReady(fs, Probes(cfg, prefix, pathKeys))
    ensures CheckPathKeys(fs, cfg, prefix, pathKeys) == CheckProbes(fs, Probes(cfg, prefix, pathKeys), prefix)
    decreases |pathKeys|
  {
    if |pathKeys| > 0 {
      var k := pathKeys[0];
      var v := SelectPath(cfg, prefix, k);
      CheckPathKeyIsFlat(fs, v, k, prefix);
      if CheckPathKey(fs, v, k, prefix).Pass? {
        CheckPathKeysIsFlat(fs, cfg, prefix, pathKeys[1..]);
      }
      CheckProbesAppend(fs, Tag(PathsOf(v), k), Probes(cfg, prefix, pathKeys[1..]), prefix);
    }
  }

  /** The flat path phase passes exactly when every check holds, and otherwise fails
      at the first that does not, naming that path, its first missing component, its
      key and the section. */
  lemma {:induction false} CheckProbesSpec(fs: FileSystem, ps: seq<Probe>, prefix: string)
    requires ProbesReady(fs, ps)
    ensures CheckProbes(fs, ps, prefix).Pass? <==> forall i :: 0 <= i < |ps| ==> ProbeHolds(fs, ps[i])
    ensures CheckProbes(fs, ps, prefix).Fail? ==>
              exists j: nat :: FirstBadProbe(fs, ps, j)
                && BadProbeError(fs, ps[j], prefix, CheckProbes(fs, ps, prefix).error)
    decreases |ps|
  {
    if |ps| > 0 {
      CheckPathExistsSpec(fs, ps[0].path.atom.text);
      if FullyExists(fs, ps[0].path.atom.text) {
        CheckProbesSpec(fs, ps[1..], prefix);
        forall i | 1 <= i < |ps|
          ensures ps[i] == ps[1..][i - 1]
        {
        }
        if CheckProbes(fs, ps[1..], prefix).Fail? {
          var j: nat :| FirstBadProbe(fs, ps[1..], j)
            && BadProbeError(fs, ps[1..][j], prefix, CheckProbes(fs, ps[1..], prefix).error);
          assert FirstBadProbe(fs, ps, j + 1);
        }
      } else {
        assert FirstBadProbe(fs, ps, 0);
        assert !ProbeHolds(fs, ps[0]);
      }
    }
  }

  /** While a required key is missing, `require_configs` is defined whatever the path
      keys hold and whatever the disk holds, and fails with exactly the missing keys. */
  lemma MissingKeysStop(fs: FileSystem, cfg: Value, keys: seq<string>, prefix: string, pathKeys: seq<string>)
    requires AllAddressable(cfg, QualifyAll(prefix, keys))
    requires forall k :: k in pathKeys ==> k in keys
    requires Missing(cfg, QualifyAll(prefix, keys)) != []
    ensures RequireConfigsDefined(fs, cfg, keys, prefix, pathKeys)
    ensures RequireConfigs(fs, cfg, keys, prefix, pathKeys) == Fail(MissingKeys(Missing(cfg, QualifyAll(prefix, keys))))
  {
  }

  /** `require_configs` fails with the missing keys exactly when some required key is
      absent or null, and the list then holds exactly those qualified keys; it fails
      with nothing else than missing keys or a bad path. */
  lemma RequireConfigsMissingKeys(fs: FileSystem, cfg: Value, keys: seq<string>, prefix: string, pathKeys: seq<string>)
    requires RequireConfigsDefined(fs, cfg, keys, prefix, pathKeys)
    ensures var r := RequireConfigs(fs, cfg, keys, prefix, pathKeys);
            && (r.Fail? && r.error.MissingKeys? <==> exists q :: q in QualifyAll(prefix, keys) && !HasKey(cfg, q))
            && (r.Fail? && r.error.MissingKeys? ==>
                  forall q :: q in r.error.keys <==> q in QualifyAll(prefix, keys) && !HasKey(cfg, q))
            && (r.Fail? ==> r.error.MissingKeys? || r.error.BadPath?)
  {
    var qs := QualifyAll(prefix, keys);
    var missing := Missing(cfg, qs);
    if missing != [] {
      assert missing[0] in qs && !HasKey(cfg, missing[0]);
    }
  }

  /** `require_configs` passes exactly when every required key is present and every
      value of every path key is a path that exists from the root down. */
  lemma RequireConfigsPass(fs: FileSystem, cfg: Value, keys: seq<string>, prefix: string, pathKeys: seq<string>)
    requires RequireConfigsDefined(fs, cfg, keys, prefix, pathKeys)
    ensures RequireConfigs(fs, cfg, keys, prefix, pathKeys).Pass? <==>
              && (forall q :: q in QualifyAll(prefix, keys) ==> HasKey(cfg, q))
              && (forall k :: k in pathKeys ==> PathPresent(cfg, prefix, k))
              && (var ps := Probes(cfg, prefix, pathKeys);
                  forall i :: 0 <= i < |ps| ==> ProbeHolds(fs, ps[i]))
  {
    var qs := QualifyAll(prefix, keys);
    var missing := Missing(cfg, qs);
    if missing == [] {
      PathKeysPresent(cfg, keys, prefix, pathKeys);
      CheckPathKeysIsFlat(fs, cfg, prefix, pathKeys);
      CheckProbesSpec(fs, Probes(cfg, prefix, pathKeys), prefix);
    } else {
      assert missing[0] in qs && !HasKey(cfg, missing[0]);
    }
  }

  /** A bad-path failure happens only once no key is missing, and it names the first
      check, in key order and then list order, whose path does not exist from the
      root down, together with that path's first missing component, its key and the
      section. */
  lemma RequireConfigsBadPath(fs: FileSystem, cfg: Value, keys: seq<string>, prefix: string, pathKeys: seq<string>)
    requires RequireConfigsDefined(fs, cfg, keys, prefix, pathKeys)
    requires RequireConfigs(fs, cfg, keys, prefix, pathKeys).Fail?
    requires RequireConfigs(fs, cfg, keys, prefix, pathKeys).error.BadPath?
    ensures Missing(cfg, QualifyAll(prefix, keys)) == []
    ensures forall k :: k in pathKeys ==> PathPresent(cfg, prefix, k)
    ensures exists j: nat :: FirstBadProbe(fs, Probes(cfg, prefix, pathKeys), j)
              && BadProbeError(fs, Probes(cfg, prefix, pathKeys)[j], prefix,
                               RequireConfigs(fs, cfg, keys, prefix, pathKeys).error)
  {
    PathKeysPresent(cfg, keys, prefix, pathKeys);
    CheckPathKeysIsFlat(fs, cfg, prefix, pathKeys);
    CheckProbesSpec(fs, Probes(cfg, prefix, pathKeys), prefix);
  }

  /** No path is looked at while a key is missing: the outcome is then the same
      whatever exists on disk. */
  lemma KeysBeforePaths(fs1: FileSystem, fs2: FileSystem, cfg: Value, keys: seq<string>, prefix: string, pathKeys: seq<string>)
    requires AllAddressable(cfg, QualifyAll(prefix, keys))
    requires forall k :: k in pathKeys ==> k in keys
    requires Missing(cfg, QualifyAll(prefix, keys)) != []
    ensures RequireConfigsDefined(fs1, cfg, keys, prefix, pathKeys)
    ensures RequireConfigsDefined(fs2, cfg, keys, prefix, pathKeys)
    ensures RequireConfigs(fs1, cfg, keys, prefix, pathKeys) == RequireConfigs(fs2, cfg, keys, prefix, pathKeys)
  {
  }
}

=== FILE: resolution.dfy ===
/** Which configuration file a run uses (`resolve_config_file_path`), and the check
    `create_config_file` makes before copying the packaged factory file. */
module Resolution {
  import opened Results
  import opened PathCheck

  /** `DEFAULT_CONFIG_FILE`: the conventional file name `config.yaml`, a stem and an
      extension, relative to the working directory. */
  const DefaultConfigFile: string := "config" + ".yaml"

  /** The file `resolve_config_file_path` settles on, and whether it printed the
      notice that it fell back to the factory file. */
  datatype ConfigChoice = ConfigChoice(notice: bool, file: Result<string, CliError>)

  /** `resolve_config_file_path(config_file)`, with `factory` the packaged factory
      file (`STAMP_FACTORY_SETTINGS`). */
  function ResolveConfigFilePath(disk: Disk, explicit: Option<string>, factory: string): (r: ConfigChoice)
    ensures r.file.Ok? <==> (if explicit.Some? then OnDisk(disk, explicit.value)
                             else OnDisk(disk, DefaultConfigFile) || OnDisk(disk, factory))
    ensures r.file.Ok? ==> OnDisk(disk, r.file.value)
    ensures r.file.Err? ==> r.file.error.ConfigNotFound? && !OnDisk(disk, r.file.error.file)
    ensures r.notice <==> explicit.None? && !OnDisk(disk, DefaultConfigFile)
    ensures explicit.Some? ==>
              && (r.file.Ok? <==> OnDisk(disk, explicit.value))
              && (r.file.Ok? ==> r.file.value == explicit.value)
              && (r.file.Err? ==> r.file.error.file == explicit.value)
    ensures explicit.None? && OnDisk(disk, DefaultConfigFile) ==> r.file == Ok(DefaultConfigFile)
    ensures explicit.None? && !OnDisk(disk, DefaultConfigFile) ==>
              (r.file.Ok? ==> r.file.value == factory) && (r.file.Err? ==> r.file.error.file == factory)
  {
    var notice := explicit.None? && !OnDisk(disk, DefaultConfigFile);
    var chosen := if explicit.Some? then explicit.value else if notice then factory else DefaultConfigFile;
    ConfigChoice(notice, if !OnDisk(disk, chosen) then Err(ConfigNotFound(chosen)) else Ok(chosen))
  }

  /** `create_config_file(config_file)`: the file it copies the factory file to,
      provided the factory file is installed. */
  function CreateConfigFile(disk: Disk, explicit: Option<string>, factory: string): (r: Result<string, CliError>)
    ensures r.Ok? <==> OnDisk(disk, factory)
    ensures r.Ok? ==> r.value == (if explicit.Some? then explicit.value else DefaultConfigFile)
    ensures r.Err? ==> r.error == FactoryConfigMissing(factory)
  {
    var target := match explicit case Some(p) => p case None => DefaultConfigFile;
    if !OnDisk(disk, factory) then Err(FactoryConfigMissing(factory)) else Ok(target)
  }
}

=== FILE: results.dfy ===
/** Failure-carrying datatypes shared by the whole model, and the error kinds the
    command line reports. */
module Results {

  /** A value that may be missing (Python's `Optional`). */
  datatype Option<+T> = None | Some(value: T)

  /** A computed value, or the error that stopped the computation. */
  datatype Result<+T, +E> = Ok(value: T) | Err(error: E)

  /** A check that either passes or fails with an error; it computes nothing. */
  datatype Outcome<+E> = Pass | Fail(error: E)

  /** The ways the command line stops on bad user input. Each constructor names the
      situation, not the message text that is printed for it. */
  datatype CliError =
      /** `create_config_file`: the packaged factory configuration is not installed. */
    | FactoryConfigMissing(factory: string)
      /** `resolve_config_file_path`: the chosen configuration file does not exist. */
    | ConfigNotFound(file: string)
      /** `require_configs`: every required dotted key that is absent or null, in order. */
    | MissingKeys(keys: seq<string>)
      /** `check_and_handle_path`: `path` (held by `key` of section `prefix`) stops
          existing at component `segment`. */
    | BadPath(path: string, segment: string, key: string, prefix: string)
      /** `preprocess`: normalisation is on but the template image is not on disk. */
    | TemplateMissing(template: string)
      /** `preprocess`: the feature-extractor weights are not on disk. */
    | ModelMissing(model: string)
      /** `run_cli`: the command is none of the known ones. */
    | UnknownCommand(command: string)
}

=== FILE: scenarios.dfy ===
/** Worked cases of the gate: a section with one required key absent, a path value
    left unread while a key is missing, a data directory whose second component was
    never created, and a list of data directories whose first entry is missing and
    whose second is not a string. */
module Scenarios {
  import opened Text
  import opened Results
  import opened PathCheck
  import opened ConfigStore
  import opened Requirements

  /** The section holding `entries`, as the only top-level entry. */
  function OneSection(section: string, entries: map<string, Value>): (cfg: Value)
    ensures cfg.Map? && section in cfg.entries && cfg.entries[section] == Map(entries)
  {
    Map(map[section := Map(entries)])
  }

  /** A plainly named key of a one-section document can be looked up, and is there
      exactly when the section holds it with a non-null value. */
  lemma OneSectionKey(section: string, entries: map<string, Value>, name: string)
    requires Dot !in section && Dot !in name
    ensures Addressable(OneSection(section, entries), Qualify(section, name))
    ensures HasKey(OneSection(section, entries), Qualify(section, name))
        <==> name in entries && entries[name] != Null
  {
    var cfg := OneSection(section, entries);
    TwoSegments(section, name);
    var segs := [section, name];
    assert segs[1..] == [name] && segs[1..][1..] == [];
    assert Walkable(cfg, segs);
    SectionKey(cfg, section, name);
  }

  /** Required `a` and `b` under `section`, with only `a` set: the run stops with
      exactly `section.b` missing, and no path is looked at, whatever the disk. */
  lemma {:induction false} OneKeyMissing(fs: FileSystem, section: string, a: string, b: string, v: Value)
    requires Dot !in section && Dot !in a && Dot !in b
    requires a != b && v != Null
    ensures RequireConfigsDefined(fs, OneSection(section, map[a := v]), [a, b], section, [b])
    ensures RequireConfigs(fs, OneSection(section, map[a := v]), [a, b], section, [b])
         == Fail(MissingKeys([Qualify(section, b)]))
  {
    var cfg := OneSection(section, map[a := v]);
    OneSectionKey(section, map[a := v], a);
    OneSectionKey(section, map[a := v], b);
    var qs := QualifyAll(section, [a, b]);
    assert qs == [Qualify(section, a), Qualify(section, b)];
    assert qs[1..] == [Qualify(section, b)] && qs[1..][1..] == [];
    assert Missing(cfg, qs) == [Qualify(section, b)];
  }

  /** Required `a` and `b`, with `a` also a path key but holding anything at all, a
      number or a mapping included, and `b` unset: the run stops with `section.b`
      missing, since the path value is never read while a key is missing. */
  lemma {:induction false} PathValueUnreadWhileKeyMissing(fs: FileSystem, section: string, a: string, b: string, v: Value)
    requires Dot !in section && Dot !in a && Dot !in b
    requires a != b && v != Null
    ensures RequireConfigsDefined(fs, OneSection(section, map[a := v]), [a, b], section, [a])
    ensures RequireConfigs(fs, OneSection(section, map[a := v]), [a, b], section, [a])
         == Fail(MissingKeys([Qualify(section, b)]))
  {
    var cfg := OneSection(section, map[a := v]);
    OneSectionKey(section, map[a := v], a);
    OneSectionKey(section, map[a := v], b);
    var qs := QualifyAll(section, [a, b]);
    assert qs == [Qualify(section, a), Qualify(section, b)];
    assert qs[1..] == [Qualify(section, b)] && qs[1..][1..] == [];
    assert Missing(cfg, qs) == [Qualify(section, b)];
  }

  /** A string of a separator and three separator-free pieces splits into the empty
      piece before the first separator and the three pieces. */
  lemma {:induction false} SplitThreeAfterSep(d: string, x: string, y: string, sep: char)
    requires sep !in d && sep !in x && sep !in y
    ensures Split([sep] + d + [sep] + x + [sep] + y, sep) == ["", d, x, y]
  {
    var t := x + [sep] + y;
    var u := d + [sep] + t;
    var s := [] + [sep] + u;
    assert s == [sep] + d + [sep] + x + [sep] + y;
    calc {
      Split(s, sep);
      { SplitCons([], u, sep); }
      [[]] + Split(u, sep);
      { SplitCons(d, t, sep); }
      [[], d] + Split(t, sep);
      { SplitCons(x, y, sep); SplitPiece(y, sep); }
      [[], d, x, y];
    }
  }

  /** `/d/x/y` with `/d` present and `/d/x` absent is reported missing at `x`, the
      shallowest absent component, whatever `y` is. */
  lemma ShallowestMissing(fs: FileSystem, d: string, x: string, y: string)
    requires Sep !in d && Sep !in x && Sep !in y
    requires d != "" && x != ""
    requires [] in fs && [d] in fs && [d, x] !in fs
    ensures CheckPathExists(fs, [Sep] + d + [Sep] + x + [Sep] + y) == MissingAt(x)
  {
    SplitThreeAfterSep(d, x, y, Sep);
    var names := ["", d, x, y];
    assert Extend([d], x) == [d, x];
    assert Walk(fs, [d], [x, y]) == MissingAt(x);
    assert Extend([], d) == [d] && [d, x, y][1..] == [x, y];
    assert Walk(fs, [], [d, x, y]) == MissingAt(x);
    assert Extend([], "") == [] && names[1..] == [d, x, y];
  }

  /** Both required keys set, the path key naming `/d/x/y` on a disk where `/d/x` is
      missing: the run stops with that path, the component `x`, the key and the
      section, and reports no key as missing. */
  lemma {:induction false} PathMissingAfterKeys(fs: FileSystem, section: string, a: string, b: string, v: Value,
                                                d: string, x: string, y: string)
    requires Dot !in section && Dot !in a && Dot !in b
    requires a != b && v != Null
    requires Sep !in d && Sep !in x && Sep !in y && d != "" && x != ""
    requires [] in fs && [d] in fs && [d, x] !in fs
    ensures var path := [Sep] + d + [Sep] + x + [Sep] + y;
            var cfg := OneSection(section, map[a := v, b := Scalar(Str(path))]);
            && RequireConfigsDefined(fs, cfg, [a, b], section, [b])
            && RequireConfigs(fs, cfg, [a, b], section, [b]) == Fail(BadPath(path, x, b, section))
  {
    var path := [Sep] + d + [Sep] + x + [Sep] + y;
    var entries := map[a := v, b := Scalar(Str(path))];
    var cfg := OneSection(section, entries);
    OneSectionKey(section, entries, a);
    OneSectionKey(section, entries, b);
    TwoSegments(section, b);
    var qs := QualifyAll(section, [a, b]);
    assert qs == [Qualify(section, a), Qualify(section, b)];
    assert qs[1..] == [Qualify(section, b)] && qs[1..][1..] == [];
    assert Missing(cfg, qs) == [];
    var segs := [section, b];
    assert segs[1..] == [b] && segs[1..][1..] == [];
    assert entries[b] == Scalar(Str(path));
    assert Select(Map(entries), [b]) == Select(Scalar(Str(path)), []);
    assert Select(cfg, segs) == Select(Map(entries), [b]);
    assert PathPresent(cfg, section, b) && SelectPath(cfg, section, b) == Scalar(Str(path));
    ShallowestMissing(fs, d, x, y);
    assert CheckPathKeys(fs, cfg, section, [b]) == Fail(BadPath(path, x, b, section));
  }

  /** The path key holding a list whose first entry names `/d/x/y`, with `/d/x`
      missing, and whose second entry is a number: the run stops at the first entry,
      so the number, which could not be split, is never read. */
  lemma {:induction false} ListStopsAtMissingPath(fs: FileSystem, section: string, a: string, b: string, v: Value,
                                                  d: string, x: string, y: string, n: int)
    requires Dot !in section && Dot !in a && Dot !in b
    requires a != b && v != Null
    requires Sep !in d && Sep !in x && Sep !in y && d != "" && x != ""
    requires [] in fs && [d] in fs && [d, x] !in fs
    ensures var path := [Sep] + d + [Sep] + x + [Sep] + y;
            var cfg := OneSection(section, map[a := v, b := Seq([Scalar(Str(path)), Scalar(Int(n))])]);
            && RequireConfigsDefined(fs, cfg, [a, b], section, [b])
            && RequireConfigs(fs, cfg, [a, b], section, [b]) == Fail(BadPath(path, x, b, section))
  {
    var path := [Sep] + d + [Sep] + x + [Sep] + y;
    var list := Seq([Scalar(Str(path)), Scalar(Int(n))]);
    var entries := map[a := v, b := list];
    var cfg := OneSection(section, entries);
    OneSectionKey(section, entries, a);
    OneSectionKey(section, entries, b);
    TwoSegments(section, b);
    var qs := QualifyAll(section, [a, b]);
    assert qs == [Qualify(section, a), Qualify(section, b)];
    assert qs[1..] == [Qualify(section, b)] && qs[1..][1..] == [];
    assert Missing(cfg, qs) == [];
    var segs := [section, b];
    assert segs[1..] == [b] && segs[1..][1..] == [];
    assert entries[b] == list;
    assert Select(Map(entries), [b]) == Select(list, []);
    assert Select(cfg, segs) == Select(Map(entries), [b]);
    assert PathPresent(cfg, section, b) && SelectPath(cfg, section, b) == list;
    ShallowestMissing(fs, d, x, y);
    assert PathsOf(list) == list.items && list.items[0] == Scalar(Str(path));
    assert PathsReady(fs, PathsOf(list));
    assert CheckPathKey(fs, list, b, section) == Fail(BadPath(path, x, b, section));
    assert KeysReady(fs, cfg, section, [b]);
    assert CheckPathKeys(fs, cfg, section, [b]) == Fail(BadPath(path, x, b, section));
  }
}

=== FILE: text.dfy ===
/** Python's `str.split(sep)` for a one-character separator, and its inverse
    `sep.join(parts)`. Both the path walk (separator `/`) and the dotted-key lookup
    (separator `.`) are built on them. */
module Text {

  /** `sep.join(parts)`: the parts with one separator between neighbours. */
  function Join(parts: seq<string>, sep: char): string
    requires |parts| >= 1
    decreases |parts|
  {
    if |parts| == 1 then parts[0] else parts[0] + [sep] + Join(parts[1..], sep)
  }

  /** `s.split(sep)`: the maximal separator-free pieces of `s`, empty pieces included,
      so that there is always one piece more than there are separators. */
  function Split(s: string, sep: char): (parts: seq<string>)
    ensures |parts| >= 1
    ensures forall i :: 0 <= i < |parts| ==> sep !in parts[i]
    decreases |s|
  {
    if |s| == 0 then [""]
    else
      var rest := Split(s[1..], sep);
      if s[0] == sep then [""] + rest
      else [[s[0]] + rest[0]] + rest[1..]
  }

  /** There is one piece more than there are separators. */
  lemma {:induction false} SplitCount(s: string, sep: char)
    ensures |Split(s, sep)| == multiset(s)[sep] + 1
    decreases |s|
  {
    if |s| > 0 {
      SplitCount(s[1..], sep);
      assert s == [s[0]] + s[1..];
    }
  }

  /** Prefixing a character to the first part prefixes it to the joined string. */
  lemma JoinConsChar(c: char, parts: seq<string>, sep: char)
    requires |parts| >= 1
    ensures Join([[c] + parts[0]] + parts[1..], sep) == [c] + Join(parts, sep)
  {
    var q := [[c] + parts[0]] + parts[1..];
    if |parts| > 1 {
      assert q[1..] == parts[1..];
    }
  }

  /** Splitting and joining again gives back the original string. */
  lemma {:induction false} JoinSplit(s: string, sep: char)
    ensures Join(Split(s, sep), sep) == s
    decreases |s|
  {
    if |s| > 0 {
      var rest := Split(s[1..], sep);
      JoinSplit(s[1..], sep);
      assert s == [s[0]] + s[1..];
      if s[0] == sep {
        var q := [""] + rest;
        assert Split(s, sep) == q;
        assert q[1..] == rest;
        assert Join(q, sep) == "" + [sep] + Join(rest, sep);
      } else {
        assert Split(s, sep) == [[s[0]] + rest[0]] + rest[1..];
        JoinConsChar(s[0], rest, sep);
      }
    }
  }

  /** A piece without separators splits to itself. */
  lemma {:induction false} SplitPiece(p: string, sep: char)
    requires sep !in p
    ensures Split(p, sep) == [p]
    decreases |p|
  {
    if |p| > 0 {
      assert sep !in p[1..] by {
        forall c | c in p[1..] ensures c != sep {
          assert c in p;
        }
      }
      SplitPiece(p[1..], sep);
      assert [p[0]] + p[1..] == p;
    }
  }

  /** A leading separator-free piece followed by a separator splits off as one part. */
  lemma {:induction false} SplitCons(p: string, t: string, sep: char)
    requires sep !in p
    ensures Split(p + [sep] + t, sep) == [p] + Split(t, sep)
    decreases |p|
  {
    var s := p + [sep] + t;
    if |p| == 0 {
      assert s[0] == sep && s[1..] == t;
    } else {
      assert sep !in p[1..] by {
        forall c | c in p[1..] ensures c != sep {
          assert c in p;
        }
      }
      SplitCons(p[1..], t, sep);
      assert s[0] == p[0] && s[1..] == p[1..] + [sep] + t;
      assert [p[0]] + p[1..] == p;
    }
  }

  /** Joining separator-free parts and splitting again gives back the parts. */
  lemma {:induction false} SplitJoin(parts: seq<string>, sep: char)
    requires |parts| >= 1
    requires forall i :: 0 <= i < |parts| ==> sep !in parts[i]
    ensures Split(Join(parts, sep), sep) == parts
    decreases |parts|
  {
    if |parts| == 1 {
      SplitPiece(parts[0], sep);
    } else {
      SplitJoin(parts[1..], sep);
      SplitCons(parts[0], Join(parts[1..], sep), sep);
      assert [parts[0]] + parts[1..] == parts;
    }
  }
}
